=== FILE: README.md ===
# FinSight query core in Dafny

A model of the two pure stages of FinSight's natural-language stock screener.

- **Analyzer** (`src/analyzer.py`) turns a question about the nine tracked NSE securities into a `QueryPlan`. The plan holds:
  - a date window and fiscal year;
  - the symbols the text names;
  - four optional thresholds: minimum price growth, maximum debt/equity, minimum ROE, maximum P/E;
  - the two SQL statements that fetch price aggregates and fundamentals.
- **Integrator** (`src/integrator.py`) combines the two result tables. It:
  - keeps the latest fiscal year per symbol;
  - left-merges fundamentals onto prices by symbol;
  - applies the plan's thresholds;
  - emits one record per surviving row.

Modules:

- `Wrappers`: `Option` and `Result`. A `Result.Err` stands for the `ValueError` that `float()` raises.
- `Seqs`: order-preserving `Filter` and the subsequence relation. Boolean-mask selection on a frame is modelled with these.
- `Text`: the string builtins the source relies on:
  - `in` on strings;
  - `lower` and `upper`;
  - decimal text of integers;
  - `float()` on a `[0-9.]+` run.
- `Dates`: `datetime.date`, `relativedelta(years=n)` and `str(date)`.
- `Patterns`: the four regular expressions of `_parse_thresholds`, as matchers at a position, plus `re.search` as a leftmost scan.
- `Sql`: the two statements as lists of clauses, rendered one clause per line.
- `Analyzer`: time window, thresholds, symbol detection, `analyze_query`, `build_sql` and `analyze_and_decompose`.
- `Integrator`: the fiscal-year collapse, the left merge, the threshold filters and the output records.

A missing value is `None`. In pandas this is NaN, and NaN fails every comparison.

The language-model commentary is a function parameter, `commentary(symbol, year)`. It stands for loading the stored report text, building the prompt and calling the model.

**Query parsing can raise.** `_parse_thresholds` applies `float()` to each ratio capture, a `[0-9.]+` run (src/analyzer.py:62,66,70). That capture can be `"."`, `"1.2.3"`, or a number followed by a sentence-ending point (`"pe <= 1.5."`). In each case `float()` raises `ValueError`, and so does `analyze_query`. The model follows the code:

- `Analyzer.ParseThresholds`, `Analyzer.AnalyzeQuery` and `Analyzer.AnalyzeAndDecompose` return `Err`;
- `Analyzer.TrailingPointRaises` exhibits such an input.

## Model

| member | source | states |
|---|---|---|
| Analyzer.ParseTimeWindow | src/analyzer.py:32-46 | every window is made of valid dates, starts no later than it ends, and lies inside the data span 2016-01-01..2017-12-31; a fiscal year, when present, is the end date's year and is 2016 or 2017 |
| Analyzer.TimeWindowPriority | src/analyzer.py:33-46 | a "2016" anywhere in the text selects calendar 2016 even if "2017" also occurs; otherwise "2017" selects 2017; otherwise "last year"/"past year" (any case) selects 2016-12-31..2017-12-31 with fy 2017; otherwise the whole span with no fy |
| Dates.MinusYears | src/analyzer.py:41-42 | subtracting years keeps the month, lowers the year by exactly n, keeps the day when the earlier month has it and otherwise gives that month's last day, yields a valid date and, for n > 0, an earlier one |
| Dates.YearBeforeEndOf2017 | src/analyzer.py:41-42 | one year before 2017-12-31 is 2016-12-31 |
| Text.LowerKeepsDigitWord | src/analyzer.py:33-37 | looking for a digit-only word in the lower-cased text is the same as looking for it in the original text |
| Text.ContainsOccurrence | src/analyzer.py:35 | Python's `w in t` holds exactly when w occurs at some position of t |
| Patterns.Search | src/analyzer.py:54 | `re.search` finds nothing exactly when no position matches; otherwise its capture is the one at the leftmost matching position |
| Patterns.SearchFrom | src/analyzer.py:54 | the returned position matches and no earlier position from the start point does; no result means no position matches |
| Patterns.PriceAhead | src/analyzer.py:54 | `[^%]*price` succeeds exactly when "price" occurs later with no percent sign before it |
| Patterns.PercentBeforePrice | src/analyzer.py:54 | the first growth alternative captures a non-empty run of digits |
| Patterns.PriceGrowthPercent | src/analyzer.py:54 | the second growth alternative captures a non-empty run of digits |
| Patterns.GrowthAt | src/analyzer.py:54 | whichever growth alternative matches, the capture is a non-empty run of digits, so `float(num)` cannot fail |
| Patterns.OperatorNumber | src/analyzer.py:61 | after an operator run, the capture is a non-empty run of digits and points |
| Patterns.DebtEquityAt | src/analyzer.py:61 | the debt/equity capture is a non-empty run of digits and points |
| Patterns.RoeAt | src/analyzer.py:65 | the ROE capture is a non-empty run of digits and points |
| Patterns.PeAt | src/analyzer.py:69 | the P/E capture is a non-empty run of digits and points |
| Analyzer.GrowthThreshold | src/analyzer.py:54-58 | no growth threshold exactly when the growth pattern matches nowhere; otherwise 100 times the threshold is the integer captured at the leftmost match |
| Patterns.SearchAtStart | src/analyzer.py:54-57 | a match at position 0 is the capture `re.search` reports |
| Analyzer.GrowthPhraseMatch | src/analyzer.py:54 | "price growth N%" matches the second alternative at its start and captures the digits of N |
| Analyzer.GrowthPhrase | src/analyzer.py:53-58 | the text "price growth N%" sets the growth threshold to N/100 |
| Analyzer.PercentGrowthMatch | src/analyzer.py:54 | the first growth alternative matches "N% price growth" at its start and captures str(N) |
| Analyzer.PercentGrowthPhrase | src/analyzer.py:53-58 | the text "N% price growth" sets the growth threshold to N/100 |
| Text.ParseDecimal | src/analyzer.py:62 | `float()` of a run of digits and points fails exactly when the run is all points or holds two points; a result is never negative, and multiplied by ten to the number of characters after the point it is the number the run's digits spell |
| Text.ShiftsToScales | src/analyzer.py:62 | shifting a value k decimal places to the left reaches n exactly when the value times ten to the k is n |
| Text.ShiftPoint | src/analyzer.py:62 | the number whole.frac, shifted left past its fraction, is the number the digits of whole followed by frac spell |
| Text.PointValue | src/analyzer.py:62 | for a run with one point, the parts before and after the point are digits only (either may be empty), and its value, shifted left past its fraction, is the number its digits spell with the point removed |
| Text.ParseDecimalFraction | src/analyzer.py:62 | "15.5" converts to 15.5 |
| Text.ParseDecimalShowNat | src/analyzer.py:62 | the decimal text of a whole number, with or without one trailing point, converts back to that number |
| Text.DigitsValueShowNat | src/analyzer.py:57-58 | reading back the decimal text of n gives n |
| Analyzer.ConvertCapture | src/analyzer.py:62 | no capture gives no threshold; a capture gives the value `float()` reads from it, which is non-negative, or, exactly when it is not a decimal, the `ValueError` |
| Analyzer.RatioThreshold | src/analyzer.py:61-70 | a ratio threshold is absent exactly when its pattern matches nowhere; when present it is the value `float()` reads from the leftmost capture, which is non-negative; it raises exactly when that capture is not a decimal |
| Analyzer.ParseThresholds | src/analyzer.py:49-72 | parsing fails exactly when one of the three ratio captures of the lower-cased text fails to convert; otherwise each threshold comes from its own pattern |
| Analyzer.RoePhrase | src/analyzer.py:65-66 | the text "roe > N" sets the ROE threshold to N |
| Analyzer.DebtEquityPhrase | src/analyzer.py:61-62 | the text "debt equity < N" sets the debt/equity cap to N |
| Analyzer.RoeMatch | src/analyzer.py:65 | the ROE pattern matches "roe > N" at its start and captures str(N) |
| Analyzer.DebtEquityMatch | src/analyzer.py:61 | the debt/equity pattern matches "debt equity < N" at its start and captures str(N) |
| Analyzer.PeFraction | src/analyzer.py:69-70 | the text "pe <= 15.5" caps P/E at 15.5 |
| Analyzer.PeFractionMatch | src/analyzer.py:69 | the P/E pattern matches "pe <= 15.5" at its start and captures "15.5" |
| Analyzer.TrailingPointRaises | src/analyzer.py:69-70 | "pe <= 1.5." makes the P/E conversion raise |
| Text.UpperIgnoresLower | src/analyzer.py:76 | upper-casing a lower-cased text equals upper-casing the original |
| Analyzer.DetectSymbols | src/analyzer.py:75-78 | no symbol list exactly when no tracked symbol occurs in the upper-cased text; otherwise a non-empty list of exactly the occurring symbols, in the tracked order |
| Analyzer.DetectSymbolsIgnoresCase | src/analyzer.py:75-78 | detection gives the same answer for a text and its lower-cased form |
| Analyzer.AnalyzeQuery | src/analyzer.py:83-97 | analysis fails exactly when threshold parsing fails; a plan carries no SQL yet, an ordered window, a non-empty symbol list if any, and the window, symbols and thresholds its parsers give |
| Analyzer.StatementScopes | src/analyzer.py:100-138 | the price statement reads only `prices` and names only its columns; it restricts symbols exactly when the plan has some, and every symbol clause it holds is the one listing exactly the plan's symbols; the fundamentals statement reads only `fundamentals`, never restricts symbols, and every fiscal-year clause it holds selects the plan's fy or, without one, both data years |
| Analyzer.PriceText | src/analyzer.py:101-117 | the price text reads `prices`, restricts `trade_date` to the plan's window, and, when the plan's symbol list is non-empty, holds `AND symbol IN (...)` listing exactly those symbols, quoted and comma-separated, in the plan's order |
| Analyzer.FundText | src/analyzer.py:119-138 | the fundamentals text reads `fundamentals` with `AND fy = <fy>` for a set fy, or `AND fy IN (2016, 2017)` otherwise |
| Analyzer.BuildSql | src/analyzer.py:100-142 | both statements are attached and nothing else in the plan changes; the attached texts say what the plan asks, as for the two rows above |
| Analyzer.PriceTextTable | src/analyzer.py:113 | the price text reads the `prices` table |
| Analyzer.PriceTextWindow | src/analyzer.py:114 | the price text restricts `trade_date` to the plan's start and end, written as ISO dates |
| Analyzer.SymbolFilterText | src/analyzer.py:104-105 | a symbol filter's text is the `IN` list of its symbols, and every symbol appears in it in single quotes |
| Sql.JoinContainsPart | src/analyzer.py:104 | every part of a joined list appears in the joined text |
| Analyzer.PriceTextSymbols | src/analyzer.py:102-115 | when the plan names symbols the price text holds the `IN` list of exactly those symbols, and every one of them appears in it in single quotes |
| Analyzer.FundTextFilter | src/analyzer.py:119-137 | the fundamentals text holds the fy equality for a set fy and the two-year list otherwise |
| Sql.IsoEndOf2016 | src/analyzer.py:114 | `str(date(2016, 12, 31))`, as the window bound is written, is "2016-12-31" |
| Dates.IsoShape | src/analyzer.py:114 | `str(date)` of a valid date is ten characters with dashes at positions 4 and 7 |
| Sql.StatementContainsClause | src/analyzer.py:107-138 | every clause's text appears in the statement's text |
| Analyzer.AnalyzeAndDecompose | src/analyzer.py:145-153 | fails exactly when analysis fails; otherwise it is the analyzed plan with both statements attached, and each text says what that plan asks |
| Integrator.LatestIsUnique | src/integrator.py:12-13 | two rows that both survive the sort-and-keep-last never share a symbol |
| Integrator.KeepLatestFrom | src/integrator.py:12-13 | the kept rows are exactly the latest rows, and no two share a symbol |
| Integrator.LatestExists | src/integrator.py:12-13 | every symbol of the table has a latest row |
| Integrator.KeepLatestCovers | src/integrator.py:12-13 | every symbol of the table keeps a row |
| Integrator.KeepLatestIsGreatest | src/integrator.py:12-13 | a kept row has the greatest fy among its symbol's rows |
| Integrator.Collapse | src/integrator.py:11-13 | with an `fy` column: one row per symbol, taken from the table, with that symbol's greatest fy, and no symbol lost; without it: the table unchanged |
| Integrator.MergeOne | src/integrator.py:15 | a price row contributes at least one merged row, each keeping its symbol and price cells |
| Integrator.MergeLeft | src/integrator.py:15 | the left merge never drops a price row: it has at least as many rows as there are price rows, and price row i reappears, with its symbol and price cells, at the position after the rows of the earlier price rows |
| Integrator.MergeLeftSymbols | src/integrator.py:15 | each merged row comes from a price row: it carries that row's symbol and all three price cells |
| Integrator.MatchesOfUnique | src/integrator.py:15 | when symbols are unique, a symbol's matches are empty or exactly its one row |
| Integrator.MergeOneUnique | src/integrator.py:15 | when symbols are unique, a price row contributes exactly one merged row |
| Integrator.MergeLeftLength | src/integrator.py:15 | when symbols are unique, the merge has exactly one row per price row |
| Integrator.MergeLeftAt | src/integrator.py:15 | when symbols are unique, merged row i is price row i joined with its fundamentals, or with every fundamentals cell missing |
| Integrator.MergeLeftUnique | src/integrator.py:15 | when fundamentals are one row per symbol, the merge has one row per price row in price order: the price row joined with its fundamentals, or with all fundamentals missing |
| Integrator.MergeOrderFree | src/integrator.py:13-15 | when symbols are unique, the merge does not depend on the order of the fundamentals rows, so the sort before the merge does not matter |
| Integrator.Step | src/integrator.py:18-28 | one threshold filter keeps, in order, exactly the rows whose value meets the bound; a missing value never does; it is the identity when the bound or the column is absent |
| Integrator.StepIsFilter | src/integrator.py:18-28 | each filter, run or skipped, is the filter by its acceptance predicate |
| Integrator.ApplyThresholds | src/integrator.py:17-28 | the filters keep exactly the rows passing every active threshold, and never add rows |
| Integrator.ThresholdsConjoin | src/integrator.py:17-28 | the four filters in sequence equal a single filter by their conjunction |
| Integrator.StepsCommute | src/integrator.py:17-28 | any two threshold filters give the same rows in either order |
| Seqs.FilterFilter | src/integrator.py:18-22 | two successive mask selections equal one selection by the conjunction of the masks |
| Seqs.FilterCommutes | src/integrator.py:18-22 | two mask selections commute |
| Seqs.FilterIsSubsequence | src/integrator.py:19 | a mask selection keeps rows in their original order |
| Integrator.SurvivorsFacts | src/integrator.py:10-28 | every surviving row passes all active thresholds and comes from a price row, carrying its symbol and price cells; there are at most as many as price rows once fundamentals are one per symbol |
| Integrator.Integrate | src/integrator.py:10-53 | at most one record per price row once fundamentals are per symbol; every record carries the symbol, growth, start and end price of a queried price row and meets every active threshold on its output fields; its commentary is for the plan's fy, or 2017 |
| Integrator.RecordOfPriceRow | src/integrator.py:36-51 | a price row's record keeps its symbol and price cells; each fundamentals cell is 0.0 when its column is absent, missing (NaN) when no fundamentals row matched, and the matched row's cell otherwise; the commentary is for the plan's report year |
| Integrator.IntegrateFromPrices | src/integrator.py:15-53 | with fundamentals one row per symbol, the records are, in price order, the records of exactly those price rows whose merged row passes every active threshold; those rows form a subsequence of the merged price rows |
| Integrator.IntegrateKeepsPassing | src/integrator.py:15-53 | with fundamentals one row per symbol, a price row whose merged row passes every active threshold yields its record |
| Integrator.IntegrateOnlyPassing | src/integrator.py:15-53 | with fundamentals one row per symbol, every record is the record of a price row whose merged row passes every active threshold |
| Integrator.LatestYearDecidesFilter | src/integrator.py:10-53 | for a plan for fy 2022 with debt/equity at most 1.0, rows (A, 2022, 0.8) and (A, 2021, 2.0) collapse to the 2022 row; A survives with ratio 0.8, an absent ROE column reads 0.0, and the commentary is for 2022 |

## Left out

- The database queries, the language-model call, report-file loading and the command-line and web front ends are not modelled. The commentary enters `Integrator.Integrate` as a function parameter.
- Case mapping, `\w` and `\d` are modelled on ASCII only. `\s` is the full `str.isspace` set. Python's Unicode-aware `lower`, `upper`, `\w` and `\d` also affect non-ASCII letters and digits.
- Floating point: numbers are exact reals. `float(num) / 100.0` rounding and IEEE NaN are not modelled; NaN is `None`.
- Analyzer.BuildSql: states which fragments the statement text contains, not its exact whitespace. Each clause is rendered on its own line rather than with the source's indentation. `build_sql` also assigns the two fields on the caller's plan object and returns that same object; the model returns a new plan value, so the in-place update is not modelled. `analyze_and_decompose` (src/analyzer.py:150-152) rebinds `plan` to the returned object, so it sees the same plan either way.
- Integrator.Collapse: keeps the latest row of each symbol in table order. pandas also reorders the rows by symbol. `Integrator.MergeOrderFree` shows the merge result does not depend on that order.
- The `fy` column of the fundamentals is a non-null integer. A NULL fy, which pandas sorts last, is not modelled.
- The price result is assumed to have its `symbol`, `start_price`, `end_price` and `price_growth` columns. The fundamentals result is assumed to have `symbol`. Without them pandas raises `KeyError`, which is not modelled.
- The callers in `src/main_cli.py` and `src/services.py` pass a fourth argument to `integrate` and unpack a pair from it. `integrate` takes three arguments and returns a list. The model follows `integrate` itself.

=== FILE: analyzer.dfy ===
/**
 * The plan builder of `src/analyzer.py`: free text becomes a `QueryPlan` (date window, fiscal
 * year, four optional thresholds, optional symbol list), and the plan yields one statement over
 * `prices` and one over `fundamentals`.
 */
module Analyzer {
  import opened Wrappers
  import opened Seqs
  import opened Text
  import opened Dates
  import opened Patterns
  import opened Sql

  /** The tracked securities, in the order detection reports them. */
  const AllSymbols: seq<string> := [
    "RELIANCE", "HDFCBANK", "BHARTIARTL", "TCS", "ICICIBANK",
    "SBIN", "BAJFINANCE", "INFY", "HINDUNILVR"
  ]

  /** The span the price data covers. */
  const DataStart: Date := Date(2016, 1, 1)
  const DataEnd: Date := Date(2017, 12, 31)

  datatype QueryPlan = QueryPlan(
    startDate: Date,
    endDate: Date,
    symbols: Option<seq<string>>,
    minPriceGrowth: Option<real>,
    maxDebtEquity: Option<real>,
    minRoe: Option<real>,
    maxPe: Option<real>,
    fy: Option<int>,
    sqlPrice: Option<string>,   // filled by BuildSql
    sqlFund: Option<string>     // filled by BuildSql
  )

  datatype TimeWindow = TimeWindow(start: Date, end: Date, fy: Option<int>)

  datatype Thresholds = Thresholds(
    minPriceGrowth: Option<real>,
    maxDebtEquity: Option<real>,
    minRoe: Option<real>,
    maxPe: Option<real>
  )

  // ------------ time window ------------

  /**
   * The date window and fiscal year named by the text: a literal year wins, 2016 before 2017,
   * then "last year"/"past year", else the whole data span. No branch leaves the data span.
   */
  function ParseTimeWindow(text: string): (w: TimeWindow)
    ensures Valid(w.start) && Valid(w.end) && NotAfter(w.start, w.end)
    ensures NotAfter(DataStart, w.start) && NotAfter(w.end, DataEnd)
    ensures w.fy.Some? ==> w.fy.value == w.end.year && (w.fy.value == 2016 || w.fy.value == 2017)
  {
    var t := Lower(text);
    if Contains(t, "2016") then TimeWindow(Date(2016, 1, 1), Date(2016, 12, 31), Some(2016))
    else if Contains(t, "2017") then TimeWindow(Date(2017, 1, 1), Date(2017, 12, 31), Some(2017))
    else if Contains(t, "last year") || Contains(t, "past year") then
      var end := Date(2017, 12, 31);
      TimeWindow(MinusYears(end, 1), end, Some(2017))
    else TimeWindow(DataStart, DataEnd, None)
  }

  /** The priority of the date rules, stated on the raw text. */
  lemma TimeWindowPriority(text: string)
    ensures Contains(text, "2016") ==>
              ParseTimeWindow(text) == TimeWindow(Date(2016, 1, 1), Date(2016, 12, 31), Some(2016))
    ensures !Contains(text, "2016") && Contains(text, "2017") ==>
              ParseTimeWindow(text) == TimeWindow(Date(2017, 1, 1), Date(2017, 12, 31), Some(2017))
    ensures !Contains(text, "2016") && !Contains(text, "2017")
            && (Contains(Lower(text), "last year") || Contains(Lower(text), "past year")) ==>
              ParseTimeWindow(text) == TimeWindow(Date(2016, 12, 31), Date(2017, 12, 31), Some(2017))
    ensures !Contains(text, "2016") && !Contains(text, "2017")
            && !Contains(Lower(text), "last year") && !Contains(Lower(text), "past year") ==>
              ParseTimeWindow(text) == TimeWindow(Date(2016, 1, 1), Date(2017, 12, 31), None)
  {
    LowerKeepsDigitWord(text, "2016");
    LowerKeepsDigitWord(text, "2017");
    YearBeforeEndOf2017();
  }

  // ------------ thresholds ------------

  /** `float(s)` on a captured `[0-9.]+` run, or the `ValueError` it raises. */
  function ConvertCapture(cap: Option<string>): (r: Result<Option<real>>)
    requires cap.Some? ==> forall n :: 0 <= n < |cap.value| ==> IsNumberChar(cap.value[n])
    ensures cap.None? ==> r == Ok(None)
    ensures r.Ok? && r.value.Some? ==> r.value.value >= 0.0
    ensures r.Err? <==> cap.Some? && ParseDecimal(cap.value).None?
    ensures r.Ok? && r.value.Some? ==> cap.Some? && r.value == ParseDecimal(cap.value)
  {
    match cap
    case None => Ok(None)
    case Some(s) =>
      match ParseDecimal(s)
      case Some(v) => Ok(Some(v))
      case None => Err("could not convert string to float: '" + s + "'")
  }

  /** The growth threshold: the integer of the leftmost growth match, over 100. */
  function GrowthThreshold(t: string): (g: Option<real>)
    ensures g.None? <==> forall i :: 0 <= i <= |t| ==> GrowthAt(t, i).None?
    ensures g.Some? ==>
              && SearchFrom(t, GrowthAt, 0).Some?
              && g.value * 100.0 == DigitsValue(GrowthAt(t, SearchFrom(t, GrowthAt, 0).value).value) as real
  {
    match Search(t, GrowthAt)
    case Some(digits) => Some(DigitsValue(digits) as real / 100.0)
    case None => None
  }

  /** A ratio threshold: `float()` of the leftmost match's capture, absent when nothing matches. */
  function RatioThreshold(t: string, m: (string, nat) -> Option<string>): (r: Result<Option<real>>)
    requires forall u, i :: m(u, i).Some? ==> forall n :: 0 <= n < |m(u, i).value| ==> IsNumberChar(m(u, i).value[n])
    ensures r.Ok? ==> (r.value.None? <==> forall i :: 0 <= i <= |t| ==> m(t, i).None?)
    ensures r.Ok? && r.value.Some? ==> r.value.value >= 0.0
    ensures r.Err? <==> Search(t, m).Some? && ParseDecimal(Search(t, m).value).None?
    ensures r.Ok? && r.value.Some? ==> Search(t, m).Some? && r.value == ParseDecimal(Search(t, m).value)
  {
    ConvertCapture(Search(t, m))
  }

  /**
   * The four thresholds found in the lower-cased text; the first ratio capture that is not a
   * number raises, in the order debt/equity, ROE, P/E.
   */
  function ParseThresholds(text: string): (r: Result<Thresholds>)
    ensures var t := Lower(text);
            r.Err? <==>
              RatioThreshold(t, DebtEquityAt).Err? || RatioThreshold(t, RoeAt).Err? || RatioThreshold(t, PeAt).Err?
    ensures var t := Lower(text);
            r.Ok? ==> r.value == Thresholds(GrowthThreshold(t), RatioThreshold(t, DebtEquityAt).value,
                                            RatioThreshold(t, RoeAt).value, RatioThreshold(t, PeAt).value)
  {
    var t := Lower(text);
    var de := RatioThreshold(t, DebtEquityAt);
    var roe := RatioThreshold(t, RoeAt);
    var pe := RatioThreshold(t, PeAt);
    if de.Err? then Err(de.message)
    else if roe.Err? then Err(roe.message)
    else if pe.Err? then Err(pe.message)
    else Ok(Thresholds(GrowthThreshold(t), de.value, roe.value, pe.value))
  }

  // ------------ symbols ------------

  /**
   * The tracked symbols occurring in the upper-cased text, in tracking order; absent, never
   * empty, when none occurs.
   */
  function DetectSymbols(text: string): (r: Option<seq<string>>)
    ensures r.None? <==> forall k :: 0 <= k < |AllSymbols| ==> !Contains(Upper(text), AllSymbols[k])
    ensures r.Some? ==> |r.value| > 0 && IsSubsequence(r.value, AllSymbols)
    ensures r.Some? ==> forall s :: s in r.value <==> s in AllSymbols && Contains(Upper(text), s)
  {
    var upper := Upper(text);
    var found := Filter(AllSymbols, s => Contains(upper, s));
    FilterIsSubsequence(AllSymbols, s => Contains(upper, s));
    if |found| == 0 then
      assert forall k :: 0 <= k < |AllSymbols| ==> AllSymbols[k] !in found;
      None
    else
      assert found[0] in found;
      Some(found)
  }

  /** Detection ignores the case of the text. */
  lemma DetectSymbolsIgnoresCase(text: string)
    ensures DetectSymbols(Lower(text)) == DetectSymbols(text)
  {
    UpperIgnoresLower(text);
  }

  // ------------ entry points ------------

  /** The plan the text describes, before any SQL is attached. */
  function AnalyzeQuery(text: string): (r: Result<QueryPlan>)
    ensures r.Err? <==> ParseThresholds(text).Err?
    ensures r.Ok? ==> r.value.sqlPrice.None? && r.value.sqlFund.None?
    ensures r.Ok? ==> NotAfter(r.value.startDate, r.value.endDate)
    ensures r.Ok? ==> r.value.symbols.Some? ==> |r.value.symbols.value| > 0
    ensures r.Ok? ==>
              var w := ParseTimeWindow(text);
              var th := ParseThresholds(text).value;
              && (r.value.startDate, r.value.endDate, r.value.fy) == (w.start, w.end, w.fy)
              && r.value.symbols == DetectSymbols(text)
              && (r.value.minPriceGrowth, r.value.maxDebtEquity, r.value.minRoe, r.value.maxPe)
                 == (th.minPriceGrowth, th.maxDebtEquity, th.minRoe, th.maxPe)
  {
    var w := ParseTimeWindow(text);
    match ParseThresholds(text)
    case Err(msg) => Err(msg)
    case Ok(th) =>
      Ok(QueryPlan(
           startDate := w.start,
           endDate := w.end,
           symbols := DetectSymbols(text),
           minPriceGrowth := th.minPriceGrowth,
           maxDebtEquity := th.maxDebtEquity,
           minRoe := th.minRoe,
           maxPe := th.maxPe,
           fy := w.fy,
           sqlPrice := None,
           sqlFund := None))
  }

  /** `if plan.symbols:` — a present but empty list is as falsy as an absent one. */
  predicate HasSymbolFilter(plan: QueryPlan) {
    plan.symbols.Some? && |plan.symbols.value| > 0
  }

  /** The price statement's clauses: growth per symbol over the window, maybe restricted to symbols. */
  function PriceStatement(plan: QueryPlan): seq<Clause> {
    [SelectPriceGrowth, From(Prices), WhereBetween(TradeDate, plan.startDate, plan.endDate)]
    + (if HasSymbolFilter(plan) then [AndSymbolIn(plan.symbols.value)] else [])
    + [GroupBy(Symbol)]
  }

  /** The fundamentals statement's clauses: every ratio column for one or both fiscal years. */
  function FundStatement(plan: QueryPlan): seq<Clause> {
    [ SelectColumns([Symbol, Fy, Roe, DebtEquityRatio, CurrentRatio, PeRatio, PbRatio, MarketCap]),
      From(Fundamentals),
      WhereTrue,
      if plan.fy.Some? then AndFyEquals(plan.fy.value) else AndFyIn([2016, 2017]) ]
  }

  /** Each statement reads one table, names only that table's columns, and filters as the plan says. */
  lemma StatementScopes(plan: QueryPlan)
    ensures Tables(PriceStatement(plan)) == {Prices}
    ensures Columns(PriceStatement(plan)) <= PriceColumns
    ensures (exists k :: 0 <= k < |PriceStatement(plan)| && PriceStatement(plan)[k].AndSymbolIn?)
            <==> HasSymbolFilter(plan)
    ensures HasSymbolFilter(plan) ==> AndSymbolIn(plan.symbols.value) in PriceStatement(plan)
    ensures forall k :: 0 <= k < |PriceStatement(plan)| && PriceStatement(plan)[k].AndSymbolIn? ==>
              PriceStatement(plan)[k] == AndSymbolIn(plan.symbols.value)
    ensures Tables(FundStatement(plan)) == {Fundamentals}
    ensures Columns(FundStatement(plan)) <= FundamentalsColumns
    ensures forall k :: 0 <= k < |FundStatement(plan)| ==> !FundStatement(plan)[k].AndSymbolIn?
    ensures plan.fy.Some? ==> AndFyEquals(plan.fy.value) in FundStatement(plan)
    ensures plan.fy.None? ==> AndFyIn([2016, 2017]) in FundStatement(plan)
    ensures forall k :: 0 <= k < |FundStatement(plan)| && (FundStatement(plan)[k].AndFyEquals? || FundStatement(plan)[k].AndFyIn?) ==>
              FundStatement(plan)[k] == (if plan.fy.Some? then AndFyEquals(plan.fy.value) else AndFyIn([2016, 2017]))
  {
    var ps := PriceStatement(plan);
    var fs := FundStatement(plan);
    assert ps[1] == From(Prices);
    assert fs[1] == From(Fundamentals);
    if HasSymbolFilter(plan) {
      assert ps[3].AndSymbolIn?;
    }
  }

  /**
   * What the price text says: it reads `prices`, restricts trade dates to the plan's window, and
   * restricts symbols when the plan's list is non-empty.
   */
  predicate PriceTextFits(plan: QueryPlan, price: string) {
    && Contains(price, "FROM prices")
    && Contains(price, BetweenText(TradeDate, plan.startDate, plan.endDate))
    && (HasSymbolFilter(plan) ==> Contains(price, SymbolInText(plan.symbols.value)))
  }

  /** What the fundamentals text says: it reads `fundamentals` for the plan's fiscal year, or both data years. */
  predicate FundTextFits(plan: QueryPlan, fund: string) {
    && Contains(fund, "FROM fundamentals")
    && (plan.fy.Some? ==> Contains(fund, "AND fy = " + ShowInt(plan.fy.value)))
    && (plan.fy.None? ==> Contains(fund, "AND fy IN (2016, 2017)"))
  }

  /** The price statement's text. */
  function PriceText(plan: QueryPlan): (price: string)
    ensures PriceTextFits(plan, price)
  {
    PriceTextTable(plan);
    PriceTextWindow(plan);
    PriceTextSymbols(plan);
    RenderStatement(PriceStatement(plan))
  }

  /** The fundamentals statement's text. */
  function FundText(plan: QueryPlan): (fund: string)
    ensures FundTextFits(plan, fund)
  {
    FundTextTable(plan);
    FundTextFilter(plan);
    RenderStatement(FundStatement(plan))
  }

  /** `build_sql`: attaches the two statements' texts and changes no other field. */
  function BuildSql(plan: QueryPlan): (r: QueryPlan)
    ensures r.sqlPrice.Some? && r.sqlFund.Some?
    ensures r.(sqlPrice := plan.sqlPrice, sqlFund := plan.sqlFund) == plan
    ensures PriceTextFits(plan, r.sqlPrice.value)
    ensures FundTextFits(plan, r.sqlFund.value)
  {
    plan.(sqlPrice := Some(PriceText(plan)), sqlFund := Some(FundText(plan)))
  }

  /** The price text reads the `prices` table. */
  lemma PriceTextTable(plan: QueryPlan)
    ensures Contains(RenderStatement(PriceStatement(plan)), "FROM prices")
  {
    var ps := PriceStatement(plan);
    assert ps[1] == From(Prices);
    var r := Render(ps[1]);
    assert r == "FROM prices";
    StatementContainsClause(ps, 1);
  }

  /** The price text restricts trade dates to the plan's window, written in ISO form. */
  lemma PriceTextWindow(plan: QueryPlan)
    ensures Contains(RenderStatement(PriceStatement(plan)),
                     BetweenText(TradeDate, plan.startDate, plan.endDate))
  {
    var ps := PriceStatement(plan);
    var w := WhereBetween(TradeDate, plan.startDate, plan.endDate);
    assert ps[2] == w;
    StatementContainsClause(ps, 2);
    RenderBetween(w);
  }

  /** A symbol filter's text opens the `IN` list and quotes every symbol of it. */
  lemma SymbolFilterText(symbols: seq<string>)
    ensures Render(AndSymbolIn(symbols)) == SymbolInText(symbols)
    ensures forall k :: 0 <= k < |symbols| ==> Contains(SymbolInText(symbols), "'" + symbols[k] + "'")
  {
    var list := Join(Quoted(symbols), ", ");
    ContainsInfix("AND symbol IN (", list, ")");
    forall k | 0 <= k < |symbols|
      ensures Contains(SymbolInText(symbols), "'" + symbols[k] + "'")
    {
      JoinContainsPart(Quoted(symbols), ", ", k);
      ContainsTransitive(SymbolInText(symbols), list, Quoted(symbols)[k]);
    }
  }

  /** When the plan names symbols, the price text holds the `IN` list of exactly those symbols, each quoted. */
  lemma PriceTextSymbols(plan: QueryPlan)
    ensures HasSymbolFilter(plan) ==> Contains(RenderStatement(PriceStatement(plan)), SymbolInText(plan.symbols.value))
    ensures HasSymbolFilter(plan) ==>
              forall k :: 0 <= k < |plan.symbols.value| ==>
                Contains(RenderStatement(PriceStatement(plan)), "'" + plan.symbols.value[k] + "'")
  {
    if HasSymbolFilter(plan) {
      var ps := PriceStatement(plan);
      var syms := plan.symbols.value;
      var c := AndSymbolIn(syms);
      assert ps[3] == c;
      StatementContainsClause(ps, 3);
      SymbolFilterText(syms);
      forall k | 0 <= k < |syms|
        ensures Contains(RenderStatement(ps), "'" + syms[k] + "'")
      {
        ContainsTransitive(RenderStatement(ps), SymbolInText(syms), "'" + syms[k] + "'");
      }
    }
  }

  /** The fundamentals text reads the `fundamentals` table. */
  lemma FundTextTable(plan: QueryPlan)
    ensures Contains(RenderStatement(FundStatement(plan)), "FROM fundamentals")
  {
    var fs := FundStatement(plan);
    assert fs[1] == From(Fundamentals);
    assert Render(fs[1]) == "FROM fundamentals";
    StatementContainsClause(fs, 1);
  }

  lemma DataYearsText()
    ensures ShowInt(2016) == "2016" && ShowInt(2017) == "2017"
  {
    assert ShowNat(2) == "2";
    assert ShowNat(20) == "20";
    assert ShowNat(201) == "201";
  }

  lemma FundTextYear(plan: QueryPlan)
    requires plan.fy.Some?
    ensures Contains(RenderStatement(FundStatement(plan)), "AND fy = " + ShowInt(plan.fy.value))
  {
    var fs := FundStatement(plan);
    assert fs[3] == AndFyEquals(plan.fy.value);
    var r := Render(fs[3]);
    assert r == "AND fy = " + ShowInt(plan.fy.value);
    StatementContainsClause(fs, 3);
  }

  lemma FundTextFilter(plan: QueryPlan)
    ensures plan.fy.Some? ==> Contains(RenderStatement(FundStatement(plan)), "AND fy = " + ShowInt(plan.fy.value))
    ensures plan.fy.None? ==> Contains(RenderStatement(FundStatement(plan)), "AND fy IN (2016, 2017)")
  {
    if plan.fy.Some? {
      FundTextYear(plan);
    } else {
      FundTextBothYears(plan);
    }
  }

  lemma FundTextBothYears(plan: QueryPlan)
    requires plan.fy.None?
    ensures Contains(RenderStatement(FundStatement(plan)), "AND fy IN (2016, 2017)")
  {
    var fs := FundStatement(plan);
    assert fs[3] == AndFyIn([2016, 2017]);
    DataYearsText();
    assert IntNames([2016, 2017]) == ["2016", "2017"];
    assert Join(["2016", "2017"], ", ") == "2016, 2017";
    var r := Render(fs[3]);
    assert r == "AND fy IN (2016, 2017)";
    StatementContainsClause(fs, 3);
  }

  /** `analyze_and_decompose`: the analyzed plan with both statements attached, each saying what the plan asks. */
  function AnalyzeAndDecompose(text: string): (r: Result<QueryPlan>)
    ensures r.Err? <==> AnalyzeQuery(text).Err?
    ensures r.Ok? ==> r.value.sqlPrice.Some? && r.value.sqlFund.Some?
    ensures r.Ok? ==> r.value.(sqlPrice := None, sqlFund := None) == AnalyzeQuery(text).value
    ensures r.Ok? ==> PriceTextFits(AnalyzeQuery(text).value, r.value.sqlPrice.value)
                      && FundTextFits(AnalyzeQuery(text).value, r.value.sqlFund.value)
  {
    match AnalyzeQuery(text)
    case Err(msg) => Err(msg)
    case Ok(plan) => Ok(BuildSql(plan))
  }

  // ------------ examples of the threshold phrases ------------

  /** "price growth N%" sets the growth threshold to N/100. */
  lemma GrowthPhrase(n: nat)
    ensures GrowthThreshold("price growth " + ShowNat(n) + "%").Some?
    ensures GrowthThreshold("price growth " + ShowNat(n) + "%").value == n as real / 100.0
  {
    GrowthPhraseMatch(n);
    DigitsValueShowNat(n);
    GrowthAtStart("price growth " + ShowNat(n) + "%", ShowNat(n), n);
  }

  /** A growth match at the very start decides the threshold. */
  lemma GrowthAtStart(t: string, digits: string, n: nat)
    requires GrowthAt(t, 0) == Some(digits) && AllDigits(digits) && DigitsValue(digits) == n
    ensures GrowthThreshold(t).Some? && GrowthThreshold(t).value == n as real / 100.0
  {
    SearchAtStart(t, GrowthAt, digits);
  }

  /** The phrase matches the second growth alternative at its start, capturing the number. */
  lemma GrowthPhraseMatch(n: nat)
    ensures GrowthAt("price growth " + ShowNat(n) + "%", 0) == Some(ShowNat(n))
  {
    var digits := ShowNat(n);
    var t := "price growth " + digits + "%";
    assert !IsDigit(t[0]);
    assert PercentBeforePrice(t, 0) == None;
    assert t[..12] == "price growth";
    assert HasAt(t, 0, "price growth");
    assert t[12] == ' ' && !IsSpace(t[13]);
    assert SpanWhile(t, 12, IsSpace) == 13;
    assert forall k :: 13 <= k < 13 + |digits| ==> t[k] == digits[k - 13];
    var d := 13 + |digits|;
    assert t[d] == '%';
    assert SpanWhile(t, 13, IsDigit) == d;
    assert SpanWhile(t, d, IsSpace) == d;
    assert t[13..d] == digits;
    assert PriceGrowthPercent(t, 0) == Some(digits);
  }

  /** "roe > N" sets the ROE threshold to N. */
  lemma RoePhrase(n: nat)
    ensures RatioThreshold("roe > " + ShowNat(n), RoeAt) == Ok(Some(n as real))
  {
    RoeMatch(n);
    SearchAtStart("roe > " + ShowNat(n), RoeAt, ShowNat(n));
    ParseDecimalShowNat(n);
  }

  /** The ROE pattern matches "roe > N" at its start, capturing the number. */
  lemma RoeMatch(n: nat)
    ensures RoeAt("roe > " + ShowNat(n), 0) == Some(ShowNat(n))
  {
    var digits := ShowNat(n);
    var t := "roe > " + digits;
    assert HasAt(t, 0, "roe");
    assert SpanWhile(t, 3, IsSpace) == 4;
    assert SpanWhile(t, 4, IsAtLeastOp) == 5;
    assert SpanWhile(t, 5, IsSpace) == 6;
    assert forall k :: 6 <= k < |t| ==> t[k] == digits[k - 6];
    assert SpanWhile(t, 6, IsNumberChar) == |t|;
    assert t[6..|t|] == digits;
    assert OperatorNumber(t, 3, IsAtLeastOp) == Some(digits);
  }

  /** "N% price growth" sets the growth threshold to N/100 through the first alternative. */
  lemma PercentGrowthPhrase(n: nat)
    ensures GrowthThreshold(ShowNat(n) + "% price growth").Some?
    ensures GrowthThreshold(ShowNat(n) + "% price growth").value == n as real / 100.0
  {
    PercentGrowthMatch(n);
    DigitsValueShowNat(n);
    GrowthAtStart(ShowNat(n) + "% price growth", ShowNat(n), n);
  }

  /** The phrase matches the first growth alternative at its start, capturing the number. */
  lemma PercentGrowthMatch(n: nat)
    ensures GrowthAt(ShowNat(n) + "% price growth", 0) == Some(ShowNat(n))
  {
    var digits := ShowNat(n);
    var t := digits + "% price growth";
    var d := |digits|;
    SpanOver(digits, "% price growth", 0, IsDigit);
    assert t[d] == '%' && IsDigit(t[0]) && !IsSpace(t[d]);
    assert SpanWhile(t, d, IsSpace) == d;
    assert PriceAhead(t, d + 1) by {
      assert t == (digits + "%") + " price" + " growth";
      PriceAfterSpace(digits + "%", " growth");
    }
    assert t[0..d] == digits;
    assert PercentBeforePrice(t, 0) == Some(digits);
  }

  /** `[^%]*price` matches from a space that comes right before "price". */
  lemma PriceAfterSpace(a: string, b: string)
    ensures PriceAhead(a + " price" + b, |a|)
  {
    var t := a + " price" + b;
    var j := |a|;
    assert t[j] == ' ';
    assert !HasAt(t, j, "price") by {
      assert t[j..j + 5][0] == t[j];
    }
    assert t == (a + " ") + "price" + b;
    HasAtJoin(a + " ", "price", b);
  }

  /** "debt equity < N" sets the debt/equity cap to N. */
  lemma DebtEquityPhrase(n: nat)
    ensures RatioThreshold("debt equity < " + ShowNat(n), DebtEquityAt) == Ok(Some(n as real))
  {
    DebtEquityMatch(n);
    SearchAtStart("debt equity < " + ShowNat(n), DebtEquityAt, ShowNat(n));
    ParseDecimalShowNat(n);
  }

  /** The debt/equity pattern matches "debt equity < N" at its start, capturing the number. */
  lemma DebtEquityMatch(n: nat)
    ensures DebtEquityAt("debt equity < " + ShowNat(n), 0) == Some(ShowNat(n))
  {
    var digits := ShowNat(n);
    var t := "debt equity < " + digits;
    assert t[..4] == "debt" && t[5..11] == "equity";
    assert HasAt(t, 0, "debt") && t[4] == ' ' && HasAt(t, 5, "equity");
    assert SpanWhile(t, 11, IsSpace) == 12;
    assert SpanWhile(t, 12, IsAtMostOp) == 13;
    assert SpanWhile(t, 13, IsSpace) == 14;
    assert forall k :: 14 <= k < |t| ==> t[k] == digits[k - 14];
    assert SpanWhile(t, 14, IsNumberChar) == |t|;
    assert t[14..|t|] == digits;
    assert OperatorNumber(t, 11, IsAtMostOp) == Some(digits);
  }

  /** "pe <= 15.5" caps P/E at 15.5: the capture keeps its fraction. */
  lemma PeFraction()
    ensures RatioThreshold("pe <= 15.5", PeAt) == Ok(Some(15.5))
  {
    PeFractionMatch();
    SearchAtStart("pe <= 15.5", PeAt, "15.5");
    ParseDecimalFraction();
  }

  /** The P/E pattern matches "pe <= 15.5" at its start, capturing "15.5". */
  lemma PeFractionMatch()
    ensures PeAt("pe <= 15.5", 0) == Some("15.5")
  {
    var t := "pe <= 15.5";
    assert t[..2] == "pe" && t[1] != '/';
    assert HasAt(t, 0, "pe") && !HasAt(t, 0, "p/e");
    assert SpanWhile(t, 2, IsSpace) == 3;
    assert SpanWhile(t, 3, IsAtMostOp) == 5;
    assert SpanWhile(t, 5, IsSpace) == 6;
    assert SpanWhile(t, 6, IsNumberChar) == 10;
    assert t[6..10] == "15.5";
    assert OperatorNumber(t, 2, IsAtMostOp) == Some("15.5");
  }

  /** A ratio followed by a sentence-ending point ("pe <= 1.5.") makes `float()` raise. */
  lemma TrailingPointRaises()
    ensures RatioThreshold("pe <= 1.5.", PeAt).Err?
  {
    var t := "pe <= 1.5.";
    assert t[..2] == "pe" && t[1] != '/';
    assert HasAt(t, 0, "pe") && !HasAt(t, 0, "p/e");
    assert SpanWhile(t, 2, IsSpace) == 3;
    assert SpanWhile(t, 3, IsAtMostOp) == 5;
    assert SpanWhile(t, 5, IsSpace) == 6;
    assert SpanWhile(t, 6, IsNumberChar) == 10;
    assert t[6..10] == "1.5.";
    assert OperatorNumber(t, 2, IsAtMostOp) == Some("1.5.");
    assert PeAt(t, 0) == Some("1.5.");
    assert "1.5."[1] == '.' && "1.5."[3] == '.';
  }
}

=== FILE: dates.dfy ===
/** Calendar dates as `(year, month, day)` triples, with the little of `datetime` the planner needs. */
module Dates {
  import opened Text

  datatype Date = Date(year: nat, month: nat, day: nat)

  predicate IsLeapYear(y: nat) {
    y % 4 == 0 && (y % 100 != 0 || y % 400 == 0)
  }

  function DaysInMonth(y: nat, m: nat): nat
    requires 1 <= m <= 12
  {
    if m == 2 then (if IsLeapYear(y) then 29 else 28)
    else if m == 4 || m == 6 || m == 9 || m == 11 then 30
    else 31
  }

  /** A date `datetime.date` accepts. */
  predicate Valid(d: Date) {
    1 <= d.year <= 9999 && 1 <= d.month <= 12 && 1 <= d.day <= DaysInMonth(d.year, d.month)
  }

  /** Chronological order. */
  predicate Before(a: Date, b: Date) {
    a.year < b.year
    || (a.year == b.year && a.month < b.month)
    || (a.year == b.year && a.month == b.month && a.day < b.day)
  }

  predicate NotAfter(a: Date, b: Date) {
    a == b || Before(a, b)
  }

  /**
   * `d - relativedelta(years=n)`: the same month and day `n` years earlier, with a day the
   * earlier month lacks (29 February) clamped to that month's last day.
   */
  function MinusYears(d: Date, n: nat): (r: Date)
    requires Valid(d) && n < d.year
    ensures Valid(r)
    ensures r.year == d.year - n && r.month == d.month
    ensures d.day <= DaysInMonth(r.year, r.month) ==> r.day == d.day
    ensures d.day > DaysInMonth(r.year, r.month) ==> r.day == DaysInMonth(r.year, r.month)
    ensures n > 0 ==> Before(r, d)
  {
    var y := d.year - n;
    Date(y, d.month, if d.day > DaysInMonth(y, d.month) then DaysInMonth(y, d.month) else d.day)
  }

  /** One year before the last day of 2017 is the last day of 2016. */
  lemma YearBeforeEndOf2017()
    ensures MinusYears(Date(2017, 12, 31), 1) == Date(2016, 12, 31)
  {
  }

  /** `str(d)` for a date: `YYYY-MM-DD`, zero-padded. */
  function Iso(d: Date): string {
    PadZeros(ShowNat(d.year), 4) + "-" + PadZeros(ShowNat(d.month), 2) + "-" + PadZeros(ShowNat(d.day), 2)
  }

  /** A valid date's ISO text has the fixed `YYYY-MM-DD` shape. */
  lemma IsoShape(d: Date)
    requires Valid(d)
    ensures |Iso(d)| == 10 && Iso(d)[4] == '-' && Iso(d)[7] == '-'
  {
    FieldsFit(d);
    var y := PadZeros(ShowNat(d.year), 4);
    var m := PadZeros(ShowNat(d.month), 2);
    var dd := PadZeros(ShowNat(d.day), 2);
    assert |y| == 4 && |m| == 2 && |dd| == 2;
    assert Iso(d) == y + "-" + m + "-" + dd;
  }

  /** The fields of a valid date fit their zero-padded widths. */
  lemma FieldsFit(d: Date)
    requires Valid(d)
    ensures |ShowNat(d.year)| <= 4 && |ShowNat(d.month)| <= 2 && |ShowNat(d.day)| <= 2
  {
    assert Pow10(2) == 100;
    assert Pow10(4) == 10000;
    ShowNatLength(d.year, 4);
    ShowNatLength(d.month, 2);
    ShowNatLength(d.day, 2);
  }
}

=== FILE: integrator.dfy ===
/**
 * The integrator of `src/integrator.py`: fundamentals collapse to the latest fiscal year per
 * symbol, are left-merged onto the price rows by symbol, the plan's thresholds filter the merged
 * rows, and one output record is emitted per surviving row. A `None` cell stands for the NaN
 * pandas stores for a missing value; it fails every comparison.
 */
module Integrator {
  import opened Wrappers
  import opened Seqs
  import opened Analyzer

  /** One row of the price statement's result. */
  datatype PriceRow = PriceRow(
    symbol: string,
    startPrice: Option<real>,
    endPrice: Option<real>,
    priceGrowth: Option<real>
  )

  /** The optional columns of the fundamentals frame (`symbol` is always present). */
  datatype FundColumn =
    | FyColumn | RoeColumn | DebtEquityColumn | CurrentRatioColumn | PeColumn | PbColumn | MarketCapColumn

  /** One row of the fundamentals statement's result; cells of absent columns are never read. */
  datatype FundRow = FundRow(
    symbol: string,
    fy: int,
    roe: Option<real>,
    debtEquity: Option<real>,
    currentRatio: Option<real>,
    peRatio: Option<real>,
    pbRatio: Option<real>,
    marketCap: Option<real>
  )

  datatype FundTable = FundTable(columns: set<FundColumn>, rows: seq<FundRow>)

  /** A row of the merged frame; a fundamentals cell is `None` when unmatched or its column is absent. */
  datatype JoinedRow = JoinedRow(
    symbol: string,
    startPrice: Option<real>,
    endPrice: Option<real>,
    priceGrowth: Option<real>,
    roe: Option<real>,
    debtEquity: Option<real>,
    currentRatio: Option<real>,
    peRatio: Option<real>,
    pbRatio: Option<real>,
    marketCap: Option<real>
  )

  /** One result dictionary; `None` is a NaN float. */
  datatype OutRecord = OutRecord(
    symbol: string,
    priceGrowth: Option<real>,
    startPrice: Option<real>,
    endPrice: Option<real>,
    roe: Option<real>,
    debtEquity: Option<real>,
    peRatio: Option<real>,
    currentRatio: Option<real>,
    marketCap: Option<real>,
    commentary: string
  )

  predicate SymbolsUnique(rows: seq<FundRow>) {
    forall a, b :: 0 <= a < b < |rows| ==> rows[a].symbol != rows[b].symbol
  }

  // ------------ latest fiscal year per symbol ------------

  /**
   * Row `i` is the one `sort_values(["symbol", "fy"]).drop_duplicates("symbol", keep="last")`
   * keeps: every other row of its symbol has a smaller fy, or the same fy and an earlier place
   * (the multi-key sort is stable).
   */
  predicate IsLatest(rows: seq<FundRow>, i: nat)
    requires i < |rows|
  {
    forall j :: 0 <= j < |rows| && j != i && rows[j].symbol == rows[i].symbol ==>
      rows[j].fy < rows[i].fy || (rows[j].fy == rows[i].fy && j < i)
  }

  /** Two rows that are both latest for the same symbol are the same row. */
  lemma LatestIsUnique(rows: seq<FundRow>, i: nat, k: nat)
    requires i < |rows| && k < |rows|
    requires IsLatest(rows, i) && IsLatest(rows, k)
    ensures rows[i].symbol == rows[k].symbol ==> i == k
  {
  }

  /** The latest rows from position `i` on, in table order. */
  function KeepLatestFrom(rows: seq<FundRow>, i: nat): (r: seq<FundRow>)
    requires i <= |rows|
    ensures forall x :: x in r <==> exists k :: i <= k < |rows| && IsLatest(rows, k) && rows[k] == x
    ensures SymbolsUnique(r)
    decreases |rows| - i
  {
    if i == |rows| then []
    else
      var rest := KeepLatestFrom(rows, i + 1);
      if IsLatest(rows, i) then
        assert forall x :: x in rest ==> x.symbol != rows[i].symbol by {
          forall x | x in rest ensures x.symbol != rows[i].symbol {
            var k :| i + 1 <= k < |rows| && IsLatest(rows, k) && rows[k] == x;
            LatestIsUnique(rows, i, k);
          }
        }
        assert forall b :: 0 < b < |[rows[i]] + rest| ==> ([rows[i]] + rest)[b] in rest;
        [rows[i]] + rest
      else rest
  }

  /** The index of the latest row among those sharing row `k`'s symbol, scanning the first `n` rows. */
  function BestIndex(rows: seq<FundRow>, k: nat, n: nat): (b: nat)
    requires k < |rows| && n <= |rows|
    ensures b < |rows| && rows[b].symbol == rows[k].symbol
    ensures b == k || rows[k].fy < rows[b].fy || (rows[k].fy == rows[b].fy && k < b)
    ensures forall j :: 0 <= j < n && j != b && rows[j].symbol == rows[k].symbol ==>
              rows[j].fy < rows[b].fy || (rows[j].fy == rows[b].fy && j < b)
  {
    if n == 0 then k
    else
      var b := BestIndex(rows, k, n - 1);
      var j := n - 1;
      if j != b && rows[j].symbol == rows[k].symbol && (rows[j].fy > rows[b].fy || (rows[j].fy == rows[b].fy && j > b))
      then j
      else b
  }

  /** Every symbol of the table has a latest row. */
  lemma LatestExists(rows: seq<FundRow>, k: nat)
    requires k < |rows|
    ensures exists b :: 0 <= b < |rows| && IsLatest(rows, b) && rows[b].symbol == rows[k].symbol
  {
    var b := BestIndex(rows, k, |rows|);
    assert IsLatest(rows, b);
  }

  /** Every symbol of the table keeps a row. */
  lemma KeepLatestCovers(rows: seq<FundRow>)
    ensures forall y :: y in rows ==> exists x :: x in KeepLatestFrom(rows, 0) && x.symbol == y.symbol
  {
    forall y | y in rows ensures exists x :: x in KeepLatestFrom(rows, 0) && x.symbol == y.symbol {
      var k :| 0 <= k < |rows| && rows[k] == y;
      LatestExists(rows, k);
      var b :| 0 <= b < |rows| && IsLatest(rows, b) && rows[b].symbol == rows[k].symbol;
      assert rows[b] in KeepLatestFrom(rows, 0);
    }
  }

  /** A kept row has the greatest fy among the rows of its symbol. */
  lemma KeepLatestIsGreatest(rows: seq<FundRow>)
    ensures forall x, y :: x in KeepLatestFrom(rows, 0) && y in rows && y.symbol == x.symbol ==> y.fy <= x.fy
  {
    forall x, y | x in KeepLatestFrom(rows, 0) && y in rows && y.symbol == x.symbol ensures y.fy <= x.fy {
      var k :| 0 <= k < |rows| && IsLatest(rows, k) && rows[k] == x;
      var j :| 0 <= j < |rows| && rows[j] == y;
      if j != k {
        assert rows[j].fy < rows[k].fy || (rows[j].fy == rows[k].fy && j < k);
      }
    }
  }

  /**
   * The fy collapse: with an `fy` column, one row per symbol, the one with the greatest fy, and
   * no symbol lost; without it, the table as given.
   */
  function Collapse(t: FundTable): (r: FundTable)
    ensures r.columns == t.columns
    ensures FyColumn !in t.columns ==> r == t
    ensures FyColumn in t.columns ==>
              && SymbolsUnique(r.rows)
              && (forall x :: x in r.rows ==> x in t.rows)
              && (forall x, y :: x in r.rows && y in t.rows && y.symbol == x.symbol ==> y.fy <= x.fy)
              && (forall y :: y in t.rows ==> exists x :: x in r.rows && x.symbol == y.symbol)
  {
    if FyColumn !in t.columns then t
    else
      KeepLatestCovers(t.rows);
      KeepLatestIsGreatest(t.rows);
      t.(rows := KeepLatestFrom(t.rows, 0))
  }

  // ------------ left merge on symbol ------------

  /** A fundamentals cell as the merged frame shows it: missing when its column is absent. */
  function Cell(columns: set<FundColumn>, c: FundColumn, v: Option<real>): Option<real> {
    if c in columns then v else None
  }

  function Joined(p: PriceRow, f: FundRow, columns: set<FundColumn>): JoinedRow {
    JoinedRow(p.symbol, p.startPrice, p.endPrice, p.priceGrowth,
              Cell(columns, RoeColumn, f.roe), Cell(columns, DebtEquityColumn, f.debtEquity),
              Cell(columns, CurrentRatioColumn, f.currentRatio), Cell(columns, PeColumn, f.peRatio),
              Cell(columns, PbColumn, f.pbRatio), Cell(columns, MarketCapColumn, f.marketCap))
  }

  /** A price row without a partner keeps its price cells; every fundamentals cell is missing. */
  function Unmatched(p: PriceRow): JoinedRow {
    JoinedRow(p.symbol, p.startPrice, p.endPrice, p.priceGrowth, None, None, None, None, None, None)
  }

  function Matches(rows: seq<FundRow>, symbol: string): seq<FundRow> {
    Filter(rows, (f: FundRow) => f.symbol == symbol)
  }

  /** The merged rows one price row contributes: one per matching fundamentals row, or one unmatched row. */
  function MergeOne(p: PriceRow, fund: FundTable): (r: seq<JoinedRow>)
    ensures |r| >= 1
    ensures forall k :: 0 <= k < |r| ==>
              r[k].symbol == p.symbol && r[k].startPrice == p.startPrice &&
              r[k].endPrice == p.endPrice && r[k].priceGrowth == p.priceGrowth
  {
    var ms := Matches(fund.rows, p.symbol);
    if |ms| == 0 then [Unmatched(p)]
    else seq(|ms|, k requires 0 <= k < |ms| => Joined(p, ms[k], fund.columns))
  }

  /** A merged row carries the symbol and the price cells of price row `p`. */
  predicate FromPrice(x: JoinedRow, p: PriceRow) {
    x.symbol == p.symbol && x.startPrice == p.startPrice && x.endPrice == p.endPrice && x.priceGrowth == p.priceGrowth
  }

  /** Where price row `i`'s merged rows begin: after the rows the earlier price rows contribute. */
  function Offset(prices: seq<PriceRow>, fund: FundTable, i: nat): nat
    requires i <= |prices|
    decreases i
  {
    if i == 0 then 0 else |MergeOne(prices[0], fund)| + Offset(prices[1..], fund, i - 1)
  }

  /**
   * `pd.merge(df_price, df_fund, on="symbol", how="left")`: price order, then fundamentals order.
   * No price row is dropped: price row `i` reappears at its offset.
   */
  function MergeLeft(prices: seq<PriceRow>, fund: FundTable): (r: seq<JoinedRow>)
    ensures |r| >= |prices|
    ensures forall i {:trigger Offset(prices, fund, i)} :: 0 <= i < |prices| ==>
              Offset(prices, fund, i) < |r| && FromPrice(r[Offset(prices, fund, i)], prices[i])
  {
    if |prices| == 0 then []
    else
      var head: seq<JoinedRow> := MergeOne(prices[0], fund);
      var rest: seq<JoinedRow> := MergeLeft(prices[1..], fund);
      assert forall i :: 0 <= i < |prices| ==>
               Offset(prices, fund, i) < |head + rest| && FromPrice((head + rest)[Offset(prices, fund, i)], prices[i]) by {
        forall i | 0 <= i < |prices|
          ensures Offset(prices, fund, i) < |head + rest| && FromPrice((head + rest)[Offset(prices, fund, i)], prices[i])
        {
          if i == 0 {
            assert (head + rest)[0] == head[0];
          } else {
            var o := Offset(prices[1..], fund, i - 1);
            assert prices[1..][i - 1] == prices[i];
            assert Offset(prices, fund, i) == |head| + o;
            assert (head + rest)[|head| + o] == rest[o];
          }
        }
      }
      head + rest
  }

  /** Every merged row comes from some price row: it carries that row's symbol and price cells. */
  lemma {:induction false} MergeLeftSymbols(prices: seq<PriceRow>, fund: FundTable)
    ensures forall k :: 0 <= k < |MergeLeft(prices, fund)| ==>
              exists i :: 0 <= i < |prices| && FromPrice(MergeLeft(prices, fund)[k], prices[i])
    decreases |prices|
  {
    if |prices| > 0 {
      var head: seq<JoinedRow> := MergeOne(prices[0], fund);
      var rest: seq<JoinedRow> := MergeLeft(prices[1..], fund);
      MergeLeftSymbols(prices[1..], fund);
      assert MergeLeft(prices, fund) == head + rest;
      forall k | 0 <= k < |head + rest|
        ensures exists i :: 0 <= i < |prices| && FromPrice((head + rest)[k], prices[i])
      {
        if k < |head| {
          assert (head + rest)[k] == head[k] && FromPrice(head[k], prices[0]);
        } else {
          assert (head + rest)[k] == rest[k - |head|];
          var i :| 0 <= i < |prices[1..]| && FromPrice(rest[k - |head|], prices[1..][i]);
          assert prices[1..][i] == prices[i + 1];
          assert FromPrice((head + rest)[k], prices[i + 1]);
        }
      }
    } else {
      assert MergeLeft(prices, fund) == [];
    }
  }

  /** The first fundamentals row of a symbol. */
  function Lookup(rows: seq<FundRow>, symbol: string): (r: Option<FundRow>)
    ensures r.None? <==> forall x :: x in rows ==> x.symbol != symbol
    ensures r.Some? ==> r.value in rows && r.value.symbol == symbol
  {
    if |rows| == 0 then None
    else if rows[0].symbol == symbol then Some(rows[0])
    else Lookup(rows[1..], symbol)
  }

  /** With one row per symbol, the matches of a symbol are exactly its lookup. */
  lemma {:induction false} MatchesOfUnique(rows: seq<FundRow>, symbol: string)
    requires SymbolsUnique(rows)
    ensures Lookup(rows, symbol).None? ==> Matches(rows, symbol) == []
    ensures Lookup(rows, symbol).Some? ==> Matches(rows, symbol) == [Lookup(rows, symbol).value]
    decreases |rows|
  {
    if |rows| > 0 {
      var tail := rows[1..];
      assert SymbolsUnique(tail) by {
        forall a, b | 0 <= a < b < |tail| ensures tail[a].symbol != tail[b].symbol {
          assert tail[a] == rows[a + 1] && tail[b] == rows[b + 1];
        }
      }
      MatchesOfUnique(tail, symbol);
      if rows[0].symbol == symbol {
        assert forall x :: x in tail ==> x.symbol != symbol by {
          forall x | x in tail ensures x.symbol != symbol {
            var b :| 0 <= b < |tail| && tail[b] == x;
            assert rows[b + 1] == x;
          }
        }
      }
    }
  }

  /** The merged row of one price row when each symbol has at most one fundamentals row. */
  function MergedRow(p: PriceRow, fund: FundTable): JoinedRow {
    match Lookup(fund.rows, p.symbol)
    case None => Unmatched(p)
    case Some(f) => Joined(p, f, fund.columns)
  }

  /** With one row per symbol, a price row contributes exactly its merged row. */
  lemma MergeOneUnique(p: PriceRow, fund: FundTable)
    requires SymbolsUnique(fund.rows)
    ensures MergeOne(p, fund) == [MergedRow(p, fund)]
  {
    MatchesOfUnique(fund.rows, p.symbol);
  }

  /** With one row per symbol the merge has one row per price row. */
  lemma {:induction false} MergeLeftLength(prices: seq<PriceRow>, fund: FundTable)
    requires SymbolsUnique(fund.rows)
    ensures |MergeLeft(prices, fund)| == |prices|
    decreases |prices|
  {
    if |prices| > 0 {
      MergeOneUnique(prices[0], fund);
      MergeLeftLength(prices[1..], fund);
    }
  }

  /** With one row per symbol, merged row `i` is price row `i`'s merged row. */
  lemma {:induction false} MergeLeftAt(prices: seq<PriceRow>, fund: FundTable, i: nat)
    requires SymbolsUnique(fund.rows) && i < |prices|
    ensures |MergeLeft(prices, fund)| == |prices|
    ensures MergeLeft(prices, fund)[i] == MergedRow(prices[i], fund)
    decreases i
  {
    MergeLeftLength(prices, fund);
    MergeOneUnique(prices[0], fund);
    var tail := prices[1..];
    assert MergeLeft(prices, fund) == [MergedRow(prices[0], fund)] + MergeLeft(tail, fund);
    if i > 0 {
      MergeLeftAt(tail, fund, i - 1);
      assert tail[i - 1] == prices[i];
    }
  }

  /** With unique fundamentals symbols the left merge is a row-by-row lookup: same length, same order. */
  lemma MergeLeftUnique(prices: seq<PriceRow>, fund: FundTable)
    requires SymbolsUnique(fund.rows)
    ensures |MergeLeft(prices, fund)| == |prices|
    ensures forall i :: 0 <= i < |prices| ==> MergeLeft(prices, fund)[i] == MergedRow(prices[i], fund)
  {
    MergeLeftLength(prices, fund);
    forall i | 0 <= i < |prices| ensures MergeLeft(prices, fund)[i] == MergedRow(prices[i], fund) {
      MergeLeftAt(prices, fund, i);
    }
  }

  /** With unique symbols, the lookup depends only on which rows the table holds, not their order. */
  lemma LookupOrderFree(rows1: seq<FundRow>, rows2: seq<FundRow>, symbol: string)
    requires SymbolsUnique(rows1) && SymbolsUnique(rows2)
    requires forall x :: x in rows1 <==> x in rows2
    ensures Lookup(rows1, symbol) == Lookup(rows2, symbol)
  {
    var l1, l2 := Lookup(rows1, symbol), Lookup(rows2, symbol);
    if l1.Some? && l2.Some? {
      var a :| 0 <= a < |rows2| && rows2[a] == l1.value;
      var b :| 0 <= b < |rows2| && rows2[b] == l2.value;
      if a != b {
        if a < b { assert rows2[a].symbol != rows2[b].symbol; }
        else { assert rows2[b].symbol != rows2[a].symbol; }
      }
    }
  }

  /** The merge does not depend on the order of a symbol-unique fundamentals table. */
  lemma MergeOrderFree(prices: seq<PriceRow>, columns: set<FundColumn>, rows1: seq<FundRow>, rows2: seq<FundRow>)
    requires SymbolsUnique(rows1) && SymbolsUnique(rows2)
    requires forall x :: x in rows1 <==> x in rows2
    ensures MergeLeft(prices, FundTable(columns, rows1)) == MergeLeft(prices, FundTable(columns, rows2))
  {
    var t1, t2 := FundTable(columns, rows1), FundTable(columns, rows2);
    MergeLeftUnique(prices, t1);
    MergeLeftUnique(prices, t2);
    forall i | 0 <= i < |prices| ensures MergedRow(prices[i], t1) == MergedRow(prices[i], t2) {
      LookupOrderFree(rows1, rows2, prices[i].symbol);
    }
  }

  // ------------ threshold filters ------------

  /** The four filters, in the order the source applies them. */
  datatype Threshold = GrowthFilter | DebtEquityFilter | RoeFilter | PeFilter

  datatype Direction = AtLeast | AtMost

  function Bound(plan: QueryPlan, th: Threshold): Option<real> {
    match th
    case GrowthFilter => plan.minPriceGrowth
    case DebtEquityFilter => plan.maxDebtEquity
    case RoeFilter => plan.minRoe
    case PeFilter => plan.maxPe
  }

  /** Whether the merged frame has the filtered column; `price_growth` always comes from the price rows. */
  predicate HasColumn(columns: set<FundColumn>, th: Threshold) {
    match th
    case GrowthFilter => true
    case DebtEquityFilter => DebtEquityColumn in columns
    case RoeFilter => RoeColumn in columns
    case PeFilter => PeColumn in columns
  }

  function Field(x: JoinedRow, th: Threshold): Option<real> {
    match th
    case GrowthFilter => x.priceGrowth
    case DebtEquityFilter => x.debtEquity
    case RoeFilter => x.roe
    case PeFilter => x.peRatio
  }

  function Dir(th: Threshold): Direction {
    match th
    case GrowthFilter => AtLeast
    case DebtEquityFilter => AtMost
    case RoeFilter => AtLeast
    case PeFilter => AtMost
  }

  /** A pandas comparison against a float bound; a missing value (NaN) compares false. */
  predicate Meets(v: Option<real>, bound: real, dir: Direction) {
    v.Some? && match dir
               case AtLeast => v.value >= bound
               case AtMost => v.value <= bound
  }

  /** The filter runs only when the plan sets its bound and the frame has its column. */
  predicate Active(plan: QueryPlan, columns: set<FundColumn>, th: Threshold) {
    Bound(plan, th).Some? && HasColumn(columns, th)
  }

  /** A row survives one filter: the filter does not run, or the row's value meets the bound. */
  predicate Accepts(plan: QueryPlan, columns: set<FundColumn>, th: Threshold, x: JoinedRow) {
    !Active(plan, columns, th) || Meets(Field(x, th), Bound(plan, th).value, Dir(th))
  }

  /** A row survives all four filters. */
  predicate Passes(plan: QueryPlan, columns: set<FundColumn>, x: JoinedRow) {
    && Accepts(plan, columns, GrowthFilter, x)
    && Accepts(plan, columns, DebtEquityFilter, x)
    && Accepts(plan, columns, RoeFilter, x)
    && Accepts(plan, columns, PeFilter, x)
  }

  /** One `df = df[df[col] >= bound]` (or `<=`) step, skipped when the bound or the column is missing. */
  function Step(plan: QueryPlan, columns: set<FundColumn>, th: Threshold, rows: seq<JoinedRow>): (r: seq<JoinedRow>)
    ensures !Active(plan, columns, th) ==> r == rows
    ensures forall x :: x in r <==> x in rows && Accepts(plan, columns, th, x)
    ensures IsSubsequence(r, rows) && |r| <= |rows|
  {
    if Active(plan, columns, th) then
      var bound := Bound(plan, th).value;
      var r := Filter(rows, (x: JoinedRow) => Meets(Field(x, th), bound, Dir(th)));
      FilterIsSubsequence(rows, (x: JoinedRow) => Meets(Field(x, th), bound, Dir(th)));
      r
    else
      assert IsSubsequence(rows, rows) by { SubsequenceOfSelf(rows); }
      rows
  }

  lemma {:induction false} SubsequenceOfSelf<T>(s: seq<T>)
    ensures IsSubsequence(s, s)
    decreases |s|
  {
    if |s| > 0 {
      SubsequenceOfSelf(s[1..]);
    }
  }

  function AcceptsFn(plan: QueryPlan, columns: set<FundColumn>, th: Threshold): JoinedRow -> bool {
    x => Accepts(plan, columns, th, x)
  }

  function PassesFn(plan: QueryPlan, columns: set<FundColumn>): JoinedRow -> bool {
    x => Passes(plan, columns, x)
  }

  /** Every step, run or skipped, is the filter by its acceptance predicate. */
  lemma StepIsFilter(plan: QueryPlan, columns: set<FundColumn>, th: Threshold, rows: seq<JoinedRow>)
    ensures Step(plan, columns, th, rows) == Filter(rows, AcceptsFn(plan, columns, th))
  {
    if Active(plan, columns, th) {
      var bound := Bound(plan, th).value;
      FilterSamePredicate(rows, (x: JoinedRow) => Meets(Field(x, th), bound, Dir(th)), AcceptsFn(plan, columns, th));
    } else {
      FilterAll(rows, AcceptsFn(plan, columns, th));
    }
  }

  /** The four filters in the source's order. */
  function ApplyThresholds(plan: QueryPlan, columns: set<FundColumn>, rows: seq<JoinedRow>): (r: seq<JoinedRow>)
    ensures |r| <= |rows|
    ensures forall x :: x in r <==> x in rows && Passes(plan, columns, x)
  {
    var growth := Step(plan, columns, GrowthFilter, rows);
    var debt := Step(plan, columns, DebtEquityFilter, growth);
    var roe := Step(plan, columns, RoeFilter, debt);
    Step(plan, columns, PeFilter, roe)
  }

  /** Running the filters one after another keeps, in order, exactly the rows that pass all of them. */
  lemma ThresholdsConjoin(plan: QueryPlan, columns: set<FundColumn>, rows: seq<JoinedRow>)
    ensures ApplyThresholds(plan, columns, rows) == Filter(rows, PassesFn(plan, columns))
  {
    var g := AcceptsFn(plan, columns, GrowthFilter);
    var d := AcceptsFn(plan, columns, DebtEquityFilter);
    var o := AcceptsFn(plan, columns, RoeFilter);
    var e := AcceptsFn(plan, columns, PeFilter);
    var growth := Step(plan, columns, GrowthFilter, rows);
    var debt := Step(plan, columns, DebtEquityFilter, growth);
    var roe := Step(plan, columns, RoeFilter, debt);
    assert ApplyThresholds(plan, columns, rows) == Filter(Filter(Filter(Filter(rows, g), d), o), e) by {
      StepIsFilter(plan, columns, GrowthFilter, rows);
      StepIsFilter(plan, columns, DebtEquityFilter, growth);
      StepIsFilter(plan, columns, RoeFilter, debt);
      StepIsFilter(plan, columns, PeFilter, roe);
    }
    assert Filter(Filter(Filter(Filter(rows, g), d), o), e) == Filter(rows, Both(Both(Both(g, d), o), e)) by {
      FilterFilter(rows, g, d);
      FilterFilter(rows, Both(g, d), o);
      FilterFilter(rows, Both(Both(g, d), o), e);
    }
    assert forall x :: Both(Both(Both(g, d), o), e)(x) == PassesFn(plan, columns)(x);
    FilterSamePredicate(rows, Both(Both(Both(g, d), o), e), PassesFn(plan, columns));
  }

  /** Any two filters may run in either order. */
  lemma StepsCommute(plan: QueryPlan, columns: set<FundColumn>, th1: Threshold, th2: Threshold, rows: seq<JoinedRow>)
    ensures Step(plan, columns, th2, Step(plan, columns, th1, rows))
         == Step(plan, columns, th1, Step(plan, columns, th2, rows))
  {
    StepIsFilter(plan, columns, th1, rows);
    StepIsFilter(plan, columns, th2, rows);
    StepIsFilter(plan, columns, th2, Step(plan, columns, th1, rows));
    StepIsFilter(plan, columns, th1, Step(plan, columns, th2, rows));
    FilterCommutes(rows, AcceptsFn(plan, columns, th1), AcceptsFn(plan, columns, th2));
  }

  // ------------ output records ------------

  /** `plan.fy or 2017`: an absent or zero fiscal year falls back to 2017. */
  function ReportYear(plan: QueryPlan): int {
    if plan.fy.None? || plan.fy.value == 0 then 2017 else plan.fy.value
  }

  /** `float(row.get(col) or 0.0)`: an absent column reads 0.0; a NaN cell is truthy and stays NaN. */
  function OutCell(columns: set<FundColumn>, c: FundColumn, v: Option<real>): Option<real> {
    if c in columns then v else Some(0.0)
  }

  /**
   * The dictionary for one surviving row. `commentary(symbol, year)` stands for loading the
   * stored report text of that year, building the prompt and calling the language model.
   */
  function Record(plan: QueryPlan, columns: set<FundColumn>, x: JoinedRow, commentary: (string, int) -> string): OutRecord {
    OutRecord(x.symbol, x.priceGrowth, x.startPrice, x.endPrice,
              OutCell(columns, RoeColumn, x.roe), OutCell(columns, DebtEquityColumn, x.debtEquity),
              OutCell(columns, PeColumn, x.peRatio), OutCell(columns, CurrentRatioColumn, x.currentRatio),
              OutCell(columns, MarketCapColumn, x.marketCap),
              commentary(x.symbol, ReportYear(plan)))
  }

  /** A record carries the symbol and the price cells of price row `p`. */
  predicate RecordFromPrice(r: OutRecord, p: PriceRow) {
    r.symbol == p.symbol && r.startPrice == p.startPrice && r.endPrice == p.endPrice && r.priceGrowth == p.priceGrowth
  }

  /** An output record honours every threshold the plan sets on a column the data has. */
  predicate Honours(plan: QueryPlan, columns: set<FundColumn>, r: OutRecord) {
    && (plan.minPriceGrowth.Some? ==> Meets(r.priceGrowth, plan.minPriceGrowth.value, AtLeast))
    && (plan.maxDebtEquity.Some? && DebtEquityColumn in columns ==> Meets(r.debtEquity, plan.maxDebtEquity.value, AtMost))
    && (plan.minRoe.Some? && RoeColumn in columns ==> Meets(r.roe, plan.minRoe.value, AtLeast))
    && (plan.maxPe.Some? && PeColumn in columns ==> Meets(r.peRatio, plan.maxPe.value, AtMost))
  }

  /** The rows that survive: collapse, merge, filter. */
  function Survivors(plan: QueryPlan, prices: seq<PriceRow>, fund: FundTable): seq<JoinedRow> {
    ApplyThresholds(plan, fund.columns, MergeLeft(prices, Collapse(fund)))
  }

  /** Survivors pass every filter, come from price rows, and number at most one per price row once fundamentals are per symbol. */
  lemma SurvivorsFacts(plan: QueryPlan, prices: seq<PriceRow>, fund: FundTable)
    ensures FyColumn in fund.columns || SymbolsUnique(fund.rows) ==> |Survivors(plan, prices, fund)| <= |prices|
    ensures forall x :: x in Survivors(plan, prices, fund) ==>
              Passes(plan, fund.columns, x) && exists i :: 0 <= i < |prices| && FromPrice(x, prices[i])
  {
    var merged := MergeLeft(prices, Collapse(fund));
    MergeLeftSymbols(prices, Collapse(fund));
    if FyColumn in fund.columns || SymbolsUnique(fund.rows) {
      MergeLeftUnique(prices, Collapse(fund));
    }
    forall x | x in Survivors(plan, prices, fund)
      ensures exists i :: 0 <= i < |prices| && FromPrice(x, prices[i])
    {
      var k :| 0 <= k < |merged| && merged[k] == x;
    }
  }

  /** A row that passes the filters yields a record within the plan's thresholds. */
  lemma PassingRecordHonours(plan: QueryPlan, columns: set<FundColumn>, x: JoinedRow, commentary: (string, int) -> string)
    requires Passes(plan, columns, x)
    ensures Honours(plan, columns, Record(plan, columns, x, commentary))
  {
  }

  /**
   * `integrate(plan, df_price, df_fund)`: at most one record per price row once the
   * fundamentals are one row per symbol, every record about a queried price row, every record
   * within the plan's thresholds, and commentary for the plan's report year.
   */
  function Integrate(plan: QueryPlan, prices: seq<PriceRow>, fund: FundTable, commentary: (string, int) -> string): (r: seq<OutRecord>)
    ensures FyColumn in fund.columns || SymbolsUnique(fund.rows) ==> |r| <= |prices|
    ensures forall k :: 0 <= k < |r| ==> exists i :: 0 <= i < |prices| && RecordFromPrice(r[k], prices[i])
    ensures forall k :: 0 <= k < |r| ==> Honours(plan, fund.columns, r[k])
    ensures forall k :: 0 <= k < |r| ==> r[k].commentary == commentary(r[k].symbol, ReportYear(plan))
  {
    var kept := Survivors(plan, prices, fund);
    SurvivorsFacts(plan, prices, fund);
    var r := seq(|kept|, k requires 0 <= k < |kept| => Record(plan, fund.columns, kept[k], commentary));
    assert forall k :: 0 <= k < |r| ==> Honours(plan, fund.columns, r[k]) by {
      forall k | 0 <= k < |r| ensures Honours(plan, fund.columns, r[k]) {
        assert kept[k] in kept;
        PassingRecordHonours(plan, fund.columns, kept[k], commentary);
      }
    }
    assert forall k :: 0 <= k < |r| ==> exists i :: 0 <= i < |prices| && RecordFromPrice(r[k], prices[i]) by {
      forall k | 0 <= k < |r| ensures exists i :: 0 <= i < |prices| && RecordFromPrice(r[k], prices[i]) {
        assert kept[k] in kept;
        var i :| 0 <= i < |prices| && FromPrice(kept[k], prices[i]);
        assert RecordFromPrice(r[k], prices[i]);
      }
    }
    r
  }

  /** Each price row's merged row, in price order. */
  function MergedRows(prices: seq<PriceRow>, fund: FundTable): (r: seq<JoinedRow>)
    ensures |r| == |prices|
  {
    seq(|prices|, i requires 0 <= i < |prices| => MergedRow(prices[i], fund))
  }

  /**
   * With fundamentals one row per symbol, the records are, in price order, the records of the
   * price rows whose merged rows pass every filter.
   */
  lemma IntegrateFromPrices(plan: QueryPlan, prices: seq<PriceRow>, fund: FundTable, commentary: (string, int) -> string)
    requires FyColumn in fund.columns || SymbolsUnique(fund.rows)
    ensures var passing := Filter(MergedRows(prices, Collapse(fund)), PassesFn(plan, fund.columns));
            && IsSubsequence(passing, MergedRows(prices, Collapse(fund)))
            && Integrate(plan, prices, fund, commentary)
               == seq(|passing|, k requires 0 <= k < |passing| => Record(plan, fund.columns, passing[k], commentary))
  {
    var ms := MergedRows(prices, Collapse(fund));
    MergeLeftUnique(prices, Collapse(fund));
    assert MergeLeft(prices, Collapse(fund)) == ms;
    ThresholdsConjoin(plan, fund.columns, ms);
    FilterIsSubsequence(ms, PassesFn(plan, fund.columns));
  }

  /** With fundamentals one row per symbol, a price row whose merged row passes yields its record. */
  lemma IntegrateKeepsPassing(plan: QueryPlan, prices: seq<PriceRow>, fund: FundTable, commentary: (string, int) -> string)
    requires FyColumn in fund.columns || SymbolsUnique(fund.rows)
    ensures forall i :: 0 <= i < |prices| && Passes(plan, fund.columns, MergedRow(prices[i], Collapse(fund))) ==>
              Record(plan, fund.columns, MergedRow(prices[i], Collapse(fund)), commentary) in Integrate(plan, prices, fund, commentary)
  {
    var merged := MergeLeft(prices, Collapse(fund));
    var kept := Survivors(plan, prices, fund);
    var r := Integrate(plan, prices, fund, commentary);
    MergeLeftUnique(prices, Collapse(fund));
    forall i | 0 <= i < |prices| && Passes(plan, fund.columns, MergedRow(prices[i], Collapse(fund)))
      ensures Record(plan, fund.columns, MergedRow(prices[i], Collapse(fund)), commentary) in r
    {
      assert merged[i] in merged;
      var k :| 0 <= k < |kept| && kept[k] == merged[i];
      assert r[k] == Record(plan, fund.columns, merged[i], commentary);
    }
  }

  /** With fundamentals one row per symbol, every record is the record of a price row whose merged row passes. */
  lemma IntegrateOnlyPassing(plan: QueryPlan, prices: seq<PriceRow>, fund: FundTable, commentary: (string, int) -> string)
    requires FyColumn in fund.columns || SymbolsUnique(fund.rows)
    ensures forall x :: x in Integrate(plan, prices, fund, commentary) ==>
              exists i :: 0 <= i < |prices| && Passes(plan, fund.columns, MergedRow(prices[i], Collapse(fund))) &&
                          x == Record(plan, fund.columns, MergedRow(prices[i], Collapse(fund)), commentary)
  {
    var merged := MergeLeft(prices, Collapse(fund));
    var kept := Survivors(plan, prices, fund);
    var r := Integrate(plan, prices, fund, commentary);
    MergeLeftUnique(prices, Collapse(fund));
    forall x | x in r
      ensures exists i :: 0 <= i < |prices| && Passes(plan, fund.columns, MergedRow(prices[i], Collapse(fund))) &&
                          x == Record(plan, fund.columns, MergedRow(prices[i], Collapse(fund)), commentary)
    {
      var k :| 0 <= k < |r| && r[k] == x;
      assert kept[k] in kept;
      var i :| 0 <= i < |merged| && merged[i] == kept[k];
      assert Passes(plan, fund.columns, MergedRow(prices[i], Collapse(fund)));
    }
  }

  /**
   * How a record's fundamentals cell arises from the fundamentals row its symbol found: 0.0 when
   * the column is absent (`row.get` gives None), missing (NaN) when no row matched, and the
   * row's own cell otherwise.
   */
  predicate CellFrom(columns: set<FundColumn>, c: FundColumn, found: Option<FundRow>, cell: Option<real>, out: Option<real>) {
    if c !in columns then out == Some(0.0)
    else if found.None? then out.None?
    else out == cell
  }

  /** The record of a price row: price cells passed through, fundamentals cells as `CellFrom` says. */
  lemma RecordOfPriceRow(plan: QueryPlan, p: PriceRow, fund: FundTable, commentary: (string, int) -> string)
    ensures var r := Record(plan, fund.columns, MergedRow(p, fund), commentary);
            var f := Lookup(fund.rows, p.symbol);
            && r.symbol == p.symbol && r.priceGrowth == p.priceGrowth
            && r.startPrice == p.startPrice && r.endPrice == p.endPrice
            && CellFrom(fund.columns, RoeColumn, f, if f.Some? then f.value.roe else None, r.roe)
            && CellFrom(fund.columns, DebtEquityColumn, f, if f.Some? then f.value.debtEquity else None, r.debtEquity)
            && CellFrom(fund.columns, PeColumn, f, if f.Some? then f.value.peRatio else None, r.peRatio)
            && CellFrom(fund.columns, CurrentRatioColumn, f, if f.Some? then f.value.currentRatio else None, r.currentRatio)
            && CellFrom(fund.columns, MarketCapColumn, f, if f.Some? then f.value.marketCap else None, r.marketCap)
            && r.commentary == commentary(p.symbol, ReportYear(plan))
  {
  }

  /**
   * A plan for fiscal year 2022 capped at debt/equity 1.0: symbol A's rows for 2022 (0.8) and
   * 2021 (2.0) collapse to the 2022 row, and A survives with ratio 0.8.
   */
  lemma LatestYearDecidesFilter(plan: QueryPlan, commentary: (string, int) -> string)
    requires plan.fy == Some(2022) && plan.maxDebtEquity == Some(1.0)
    requires plan.minPriceGrowth.None? && plan.minRoe.None? && plan.maxPe.None?
    ensures var fund := FundTable({FyColumn, DebtEquityColumn},
                                  [FundRow("A", 2022, None, Some(0.8), None, None, None, None),
                                   FundRow("A", 2021, None, Some(2.0), None, None, None, None)]);
            var r := Integrate(plan, [PriceRow("A", Some(10.0), Some(12.0), Some(0.2))], fund, commentary);
            |r| == 1 && r[0].symbol == "A" && r[0].debtEquity == Some(0.8) && r[0].roe == Some(0.0) &&
            r[0].commentary == commentary("A", 2022)
  {
    var rows := [FundRow("A", 2022, None, Some(0.8), None, None, None, None),
                 FundRow("A", 2021, None, Some(2.0), None, None, None, None)];
    var fund := FundTable({FyColumn, DebtEquityColumn}, rows);
    var prices := [PriceRow("A", Some(10.0), Some(12.0), Some(0.2))];
    assert IsLatest(rows, 0);
    assert !IsLatest(rows, 1);
    assert KeepLatestFrom(rows, 2) == [];
    assert KeepLatestFrom(rows, 1) == [];
    assert Collapse(fund).rows == [rows[0]];
    assert Matches(Collapse(fund).rows, "A") == [rows[0]];
    var merged := MergeLeft(prices, Collapse(fund));
    assert merged == [Joined(prices[0], rows[0], fund.columns)];
    assert Passes(plan, fund.columns, merged[0]);
    ThresholdsConjoin(plan, fund.columns, merged);
    assert Survivors(plan, prices, fund) == merged;
  }
}

=== FILE: patterns.dfy ===
/**
 * Hand-written matchers for the four regular expressions the threshold parser searches for,
 * and the leftmost-position scan of `re.search`. Each matcher answers, for one start position,
 * what the pattern's capture group holds there, or `None` when the pattern cannot match there.
 * Every greedy quantifier in these patterns is followed by a character class disjoint from its
 * own, so backtracking never changes a match and each matcher takes maximal runs.
 */
module Patterns {
  import opened Wrappers
  import opened Text

  /** The leftmost position from `from` on at which `m` matches `t`. */
  function SearchFrom(t: string, m: (string, nat) -> Option<string>, from: nat): (r: Option<nat>)
    ensures r.Some? ==> from <= r.value <= |t| && m(t, r.value).Some?
    ensures r.Some? ==> forall j :: from <= j < r.value ==> m(t, j).None?
    ensures r.None? ==> forall j :: from <= j <= |t| ==> m(t, j).None?
    decreases |t| + 1 - from
  {
    if from > |t| then None
    else if m(t, from).Some? then Some(from)
    else SearchFrom(t, m, from + 1)
  }

  /** `re.search` followed by `.group(1)`: the capture of the leftmost match, if any. */
  function Search(t: string, m: (string, nat) -> Option<string>): (r: Option<string>)
    ensures r.None? <==> forall j :: 0 <= j <= |t| ==> m(t, j).None?
    ensures r.Some? ==> SearchFrom(t, m, 0).Some? && r == m(t, SearchFrom(t, m, 0).value)
  {
    match SearchFrom(t, m, 0)
    case Some(i) => m(t, i)
    case None => None
  }

  /** A match at the very start is the leftmost one. */
  lemma SearchAtStart(t: string, m: (string, nat) -> Option<string>, cap: string)
    requires m(t, 0) == Some(cap)
    ensures Search(t, m) == Some(cap)
  {
  }

  /** `[^%]*price` from `j`: "price" occurs at or after `j` with no `%` in between. */
  function PriceAhead(t: string, j: nat): (b: bool)
    ensures b <==> exists k :: j <= k && HasAt(t, k, "price") && forall n :: j <= n < k ==> t[n] != '%'
    decreases |t| - j
  {
    if j + 5 > |t| then false
    else if HasAt(t, j, "price") then true
    else if t[j] == '%' then false
    else PriceAhead(t, j + 1)
  }

  /** `(\d+)\s*%[^%]*price` at `i`: a number, a percent sign, and later "price" before another `%`. */
  function PercentBeforePrice(t: string, i: nat): (r: Option<string>)
    ensures r.Some? ==> |r.value| > 0 && AllDigits(r.value)
  {
    if i < |t| && IsDigit(t[i]) then
      var d := SpanWhile(t, i, IsDigit);
      var s := SpanWhile(t, d, IsSpace);
      if s < |t| && t[s] == '%' && PriceAhead(t, s + 1) then Some(t[i..d]) else None
    else None
  }

  /** `\bprice growth\s*(\d+)\s*%` at `i`: the phrase at a word start, then a number and `%`. */
  function PriceGrowthPercent(t: string, i: nat): (r: Option<string>)
    ensures r.Some? ==> |r.value| > 0 && AllDigits(r.value)
  {
    if HasAt(t, i, "price growth") && (i == 0 || !IsWordChar(t[i - 1])) then
      var s := SpanWhile(t, i + 12, IsSpace);
      var d := SpanWhile(t, s, IsDigit);
      var e := SpanWhile(t, d, IsSpace);
      if d > s && e < |t| && t[e] == '%' then Some(t[s..d]) else None
    else None
  }

  /** The growth pattern: its first alternative is tried before its second at every position. */
  function GrowthAt(t: string, i: nat): (r: Option<string>)
    ensures r.Some? ==> |r.value| > 0 && AllDigits(r.value)
  {
    var first := PercentBeforePrice(t, i);
    if first.Some? then first else PriceGrowthPercent(t, i)
  }

  predicate IsAtMostOp(c: char) { c == '<' || c == '\U{2264}' || c == '=' }

  predicate IsAtLeastOp(c: char) { c == '>' || c == '\U{2265}' || c == '=' }

  /** `\s*[ops]+\s*([0-9.]+)` from `k`: the run of digits and points after an operator run. */
  function OperatorNumber(t: string, k: nat, isOp: char -> bool): (r: Option<string>)
    requires k <= |t|
    ensures r.Some? ==> |r.value| > 0 && forall n :: 0 <= n < |r.value| ==> IsNumberChar(r.value[n])
  {
    var s := SpanWhile(t, k, IsSpace);
    var o := SpanWhile(t, s, isOp);
    var v := SpanWhile(t, o, IsSpace);
    var e := SpanWhile(t, v, IsNumberChar);
    if o > s && e > v then Some(t[v..e]) else None
  }

  /** `debt[- ]equity\s*[<≤=]+\s*([0-9.]+)` at `i`. */
  function DebtEquityAt(t: string, i: nat): (r: Option<string>)
    ensures r.Some? ==> |r.value| > 0 && forall n :: 0 <= n < |r.value| ==> IsNumberChar(r.value[n])
  {
    if HasAt(t, i, "debt") && i + 4 < |t| && (t[i + 4] == '-' || t[i + 4] == ' ') && HasAt(t, i + 5, "equity")
    then OperatorNumber(t, i + 11, IsAtMostOp)
    else None
  }

  /** `roe\s*[>≥=]+\s*([0-9.]+)` at `i`. */
  function RoeAt(t: string, i: nat): (r: Option<string>)
    ensures r.Some? ==> |r.value| > 0 && forall n :: 0 <= n < |r.value| ==> IsNumberChar(r.value[n])
  {
    if HasAt(t, i, "roe") then OperatorNumber(t, i + 3, IsAtLeastOp) else None
  }

  /** `(?:p\/?e|pe)\s*[<≤=]+\s*([0-9.]+)` at `i`: "p/e" is tried before "pe". */
  function PeAt(t: string, i: nat): (r: Option<string>)
    ensures r.Some? ==> |r.value| > 0 && forall n :: 0 <= n < |r.value| ==> IsNumberChar(r.value[n])
  {
    if HasAt(t, i, "p/e") then OperatorNumber(t, i + 3, IsAtMostOp)
    else if HasAt(t, i, "pe") then OperatorNumber(t, i + 2, IsAtMostOp)
    else None
  }
}

=== FILE: seqs.dfy ===
/** Order-preserving filtering of sequences, the shape of every row selection in the pipeline. */
module Seqs {

  /** `a` can be obtained from `b` by deleting elements, keeping the order of the rest. */
  predicate IsSubsequence<T(==)>(a: seq<T>, b: seq<T>)
    decreases |b|
  {
    if |a| == 0 then true
    else if |b| == 0 then false
    else if a[0] == b[0] then IsSubsequence(a[1..], b[1..])
    else IsSubsequence(a, b[1..])
  }

  /** The elements of `s` satisfying `p`, in their original order. */
  function Filter<T(!new)>(s: seq<T>, p: T -> bool): (r: seq<T>)
    ensures |r| <= |s|
    ensures forall x :: x in r <==> x in s && p(x)
  {
    if |s| == 0 then []
    else if p(s[0]) then [s[0]] + Filter(s[1..], p)
    else Filter(s[1..], p)
  }

  /** Filtering keeps the surviving elements in their original relative order. */
  lemma {:induction false} FilterIsSubsequence<T(!new)>(s: seq<T>, p: T -> bool)
    ensures IsSubsequence(Filter(s, p), s)
  {
    if |s| > 0 {
      FilterIsSubsequence(s[1..], p);
      var r := Filter(s[1..], p);
      if p(s[0]) {
        assert ([s[0]] + r)[1..] == r;
      } else {
        SkipHead(r, s);
      }
    }
  }

  /** A subsequence of the tail is a subsequence of the whole. */
  lemma {:induction false} SkipHead<T>(a: seq<T>, b: seq<T>)
    requires |b| > 0
    requires IsSubsequence(a, b[1..])
    ensures IsSubsequence(a, b)
    decreases |a| + |b|
  {
    if |a| > 0 && a[0] == b[0] {
      DropFirst(a, b[1..]);
    }
  }

  /** Dropping the first element of `a` keeps it a subsequence. */
  lemma {:induction false} DropFirst<T>(a: seq<T>, c: seq<T>)
    requires |a| > 0
    requires IsSubsequence(a, c)
    ensures IsSubsequence(a[1..], c)
    decreases |a| + |c|
  {
    if |a| > 1 {
      if a[0] == c[0] {
        SkipHead(a[1..], c);
      } else {
        DropFirst(a, c[1..]);
        SkipHead(a[1..], c);
      }
    }
  }

  /** The conjunction of two predicates. */
  function Both<T>(p: T -> bool, q: T -> bool): T -> bool {
    x => p(x) && q(x)
  }

  /** Two filters in a row keep exactly what the conjunction keeps. */
  lemma {:induction false} FilterFilter<T(!new)>(s: seq<T>, p: T -> bool, q: T -> bool)
    ensures Filter(Filter(s, p), q) == Filter(s, Both(p, q))
  {
    if |s| > 0 {
      FilterFilter(s[1..], p, q);
      if p(s[0]) {
        assert ([s[0]] + Filter(s[1..], p))[1..] == Filter(s[1..], p);
      }
    }
  }

  /** The order in which two filters are applied does not matter. */
  lemma FilterCommutes<T(!new)>(s: seq<T>, p: T -> bool, q: T -> bool)
    ensures Filter(Filter(s, p), q) == Filter(Filter(s, q), p)
  {
    FilterFilter(s, p, q);
    FilterFilter(s, q, p);
    FilterSamePredicate(s, Both(p, q), Both(q, p));
  }

  /** Filters by pointwise-equal predicates agree. */
  lemma {:induction false} FilterSamePredicate<T(!new)>(s: seq<T>, p: T -> bool, q: T -> bool)
    requires forall x :: p(x) == q(x)
    ensures Filter(s, p) == Filter(s, q)
  {
    if |s| > 0 {
      FilterSamePredicate(s[1..], p, q);
    }
  }

  /** A filter whose predicate holds everywhere keeps the whole sequence. */
  lemma {:induction false} FilterAll<T(!new)>(s: seq<T>, p: T -> bool)
    requires forall x :: x in s ==> p(x)
    ensures Filter(s, p) == s
  {
    if |s| > 0 {
      assert forall x :: x in s[1..] ==> x in s;
      FilterAll(s[1..], p);
    }
  }
}

=== FILE: sql.dfy ===
/**
 * The two generated statements as sequences of clause fragments. A statement's text is its
 * clauses rendered one per line; which table it reads and which columns it names are read off
 * the fragments, so table scoping is a property of the fragment list.
 */
module Sql {
  import opened Text
  import opened Dates

  datatype Table = Prices | Fundamentals

  datatype Column =
    | Symbol | TradeDate | ClosePrice
    | Fy | Roe | DebtEquityRatio | CurrentRatio | PeRatio | PbRatio | MarketCap

  datatype Clause =
    | SelectPriceGrowth          // symbol, MIN and MAX close and their growth ratio
    | SelectColumns(columns: seq<Column>)
    | From(table: Table)
    | WhereBetween(column: Column, low: Date, high: Date)
    | WhereTrue                  // `WHERE 1 = 1`, so that every filter can start with AND
    | AndSymbolIn(symbols: seq<string>)
    | AndFyEquals(fy: int)
    | AndFyIn(years: seq<int>)
    | GroupBy(column: Column)

  /** Columns the price table owns. */
  const PriceColumns: set<Column> := {Symbol, TradeDate, ClosePrice}

  /** Columns the fundamentals table owns. */
  const FundamentalsColumns: set<Column> :=
    {Symbol, Fy, Roe, DebtEquityRatio, CurrentRatio, PeRatio, PbRatio, MarketCap}

  function TableName(t: Table): string {
    match t
    case Prices => "prices"
    case Fundamentals => "fundamentals"
  }

  function ColumnName(c: Column): string {
    match c
    case Symbol => "symbol"
    case TradeDate => "trade_date"
    case ClosePrice => "close_price"
    case Fy => "fy"
    case Roe => "roe"
    case DebtEquityRatio => "debt_equity_ratio"
    case CurrentRatio => "current_ratio"
    case PeRatio => "pe_ratio"
    case PbRatio => "pb_ratio"
    case MarketCap => "market_cap"
  }

  /** The columns a clause names. */
  function ClauseColumns(c: Clause): set<Column> {
    match c
    case SelectPriceGrowth => {Symbol, ClosePrice}
    case SelectColumns(cols) => set k | 0 <= k < |cols| :: cols[k]
    case From(_) => {}
    case WhereBetween(col, _, _) => {col}
    case WhereTrue => {}
    case AndSymbolIn(_) => {Symbol}
    case AndFyEquals(_) => {Fy}
    case AndFyIn(_) => {Fy}
    case GroupBy(col) => {col}
  }

  /** The columns a statement names. */
  function Columns(cs: seq<Clause>): set<Column> {
    set k, c | 0 <= k < |cs| && c in ClauseColumns(cs[k]) :: c
  }

  /** The tables a statement reads from. */
  function Tables(cs: seq<Clause>): set<Table> {
    set k | 0 <= k < |cs| && cs[k].From? :: cs[k].table
  }

  function Join(parts: seq<string>, sep: string): string {
    if |parts| == 0 then ""
    else if |parts| == 1 then parts[0]
    else parts[0] + sep + Join(parts[1..], sep)
  }

  function Quoted(ss: seq<string>): (r: seq<string>)
    ensures |r| == |ss|
  {
    seq(|ss|, k requires 0 <= k < |ss| => "'" + ss[k] + "'")
  }

  function ColumnNames(cs: seq<Column>): (r: seq<string>)
    ensures |r| == |cs|
  {
    seq(|cs|, k requires 0 <= k < |cs| => ColumnName(cs[k]))
  }

  function IntNames(ns: seq<int>): (r: seq<string>)
    ensures |r| == |ns|
  {
    seq(|ns|, k requires 0 <= k < |ns| => ShowInt(ns[k]))
  }

  /** `AND symbol IN ('A', 'B')`: the symbols quoted and comma-separated. */
  function SymbolInText(syms: seq<string>): string {
    "AND symbol IN (" + Join(Quoted(syms), ", ") + ")"
  }

  /** Every part of a joined list appears in the joined text. */
  lemma {:induction false} JoinContainsPart(parts: seq<string>, sep: string, k: nat)
    requires k < |parts|
    ensures Contains(Join(parts, sep), parts[k])
    decreases |parts|
  {
    var rest := parts[1..];
    if |parts| == 1 {
      assert Join(parts, sep) == "" + parts[0] + "";
      ContainsInfix("", parts[0], "");
    } else if k == 0 {
      assert Join(parts, sep) == "" + parts[0] + (sep + Join(rest, sep));
      ContainsInfix("", parts[0], sep + Join(rest, sep));
    } else {
      JoinContainsPart(rest, sep, k - 1);
      assert Join(parts, sep) == parts[0] + sep + Join(rest, sep) + "";
      ContainsInfix(parts[0] + sep, Join(rest, sep), "");
      ContainsTransitive(Join(parts, sep), Join(rest, sep), parts[k]);
    }
  }

  /** `WHERE <col> BETWEEN '<low>' AND '<high>'`, dates in ISO form. */
  function BetweenText(col: Column, low: Date, high: Date): string {
    "WHERE " + ColumnName(col) + " BETWEEN '" + Iso(low) + "' AND '" + Iso(high) + "'"
  }

  /** `str(date(2016, 12, 31))` is "2016-12-31", as the window's bounds are written. */
  lemma IsoEndOf2016()
    ensures Iso(Date(2016, 12, 31)) == "2016-12-31"
  {
    var y, m, d := PadZeros(ShowNat(2016), 4), PadZeros(ShowNat(12), 2), PadZeros(ShowNat(31), 2);
    assert Iso(Date(2016, 12, 31)) == y + "-" + m + "-" + d;
    PaddedYear();
    PaddedMonth();
    PaddedDay();
    DashedFields(y, m, d);
  }

  lemma PaddedYear()
    ensures PadZeros(ShowNat(2016), 4) == "2016"
  {
  }

  lemma PaddedMonth()
    ensures PadZeros(ShowNat(12), 2) == "12"
  {
  }

  lemma PaddedDay()
    ensures PadZeros(ShowNat(31), 2) == "31"
  {
  }

  lemma DashedFields(y: string, m: string, d: string)
    requires y == "2016" && m == "12" && d == "31"
    ensures y + "-" + m + "-" + d == "2016-12-31"
  {
  }

  /** The text of one clause. */
  function Render(c: Clause): string {
    match c
    case SelectPriceGrowth =>
      "SELECT symbol, MIN(close_price) AS start_price, MAX(close_price) AS end_price, "
      + "(MAX(close_price) - MIN(close_price)) / MIN(close_price) AS price_growth"
    case SelectColumns(cols) => "SELECT " + Join(ColumnNames(cols), ", ")
    case From(t) => "FROM " + TableName(t)
    case WhereBetween(col, low, high) => BetweenText(col, low, high)
    case WhereTrue => "WHERE 1 = 1"
    case AndSymbolIn(syms) => SymbolInText(syms)
    case AndFyEquals(fy) => "AND fy = " + ShowInt(fy)
    case AndFyIn(years) => "AND fy IN (" + Join(IntNames(years), ", ") + ")"
    case GroupBy(col) => "GROUP BY " + ColumnName(col)
  }

  lemma RenderBetween(c: Clause)
    requires c.WhereBetween?
    ensures Render(c) == BetweenText(c.column, c.low, c.high)
  {
  }

  /** The text of a statement: its clauses, one per line. */
  function RenderStatement(cs: seq<Clause>): string {
    Lines(seq(|cs|, k requires 0 <= k < |cs| => Render(cs[k])))
  }

  /** Every clause's text appears in the statement's text. */
  lemma StatementContainsClause(cs: seq<Clause>, k: nat)
    requires k < |cs|
    ensures Contains(RenderStatement(cs), Render(cs[k]))
  {
    LinesContainLine(seq(|cs|, k requires 0 <= k < |cs| => Render(cs[k])), k);
  }
}

=== FILE: text.dfy ===
/** Character classes, substring search, case mapping and decimal text as Python's `str` sees them. */
module Text {
  import opened Wrappers

  predicate IsDigit(c: char) { '0' <= c <= '9' }

  /** Characters of a `[0-9.]` class: digits and the decimal point. */
  predicate IsNumberChar(c: char) { IsDigit(c) || c == '.' }

  /** The characters `str.isspace()` accepts, which is what `\s` matches in a `str` pattern. */
  predicate IsSpace(c: char) {
    || '\t' <= c <= '\r'
    || '\U{1C}' <= c <= ' '
    || c == '\U{85}' || c == '\U{A0}' || c == '\U{1680}'
    || '\U{2000}' <= c <= '\U{200A}'
    || c == '\U{2028}' || c == '\U{2029}' || c == '\U{202F}' || c == '\U{205F}' || c == '\U{3000}'
  }

  /** `\w` restricted to ASCII: letters, digits and the underscore. */
  predicate IsWordChar(c: char) {
    IsDigit(c) || 'a' <= c <= 'z' || 'A' <= c <= 'Z' || c == '_'
  }

  function LowerChar(c: char): char {
    if 'A' <= c <= 'Z' then (c as int + 32) as char else c
  }

  function UpperChar(c: char): char {
    if 'a' <= c <= 'z' then (c as int - 32) as char else c
  }

  /** `str.lower()` on the ASCII letters; every other character is kept. */
  function Lower(t: string): (r: string)
    ensures |r| == |t|
    ensures forall k :: 0 <= k < |t| ==> r[k] == LowerChar(t[k])
  {
    seq(|t|, k requires 0 <= k < |t| => LowerChar(t[k]))
  }

  /** `str.upper()` on the ASCII letters; every other character is kept. */
  function Upper(t: string): (r: string)
    ensures |r| == |t|
    ensures forall k :: 0 <= k < |t| ==> r[k] == UpperChar(t[k])
  {
    seq(|t|, k requires 0 <= k < |t| => UpperChar(t[k]))
  }

  /** Upper-casing forgets any earlier lower-casing: symbol matching ignores case. */
  lemma UpperIgnoresLower(t: string)
    ensures Upper(Lower(t)) == Upper(t)
  {
    assert forall k :: 0 <= k < |t| ==> UpperChar(LowerChar(t[k])) == UpperChar(t[k]);
  }

  /** `w` occurs in `t` at position `i`. */
  predicate HasAt(t: string, i: nat, w: string) {
    i + |w| <= |t| && t[i..i + |w|] == w
  }

  /** `w` occurs where it is joined in. */
  lemma HasAtJoin(a: string, w: string, b: string)
    ensures HasAt(a + w + b, |a|, w)
  {
    assert (a + w + b)[|a|..|a| + |w|] == w;
  }

  /** Python's `w in t` on strings: a scan for an occurrence at `from` or later. */
  predicate ContainsFrom(t: string, w: string, from: nat)
    decreases |t| - from
  {
    if from + |w| > |t| then false else HasAt(t, from, w) || ContainsFrom(t, w, from + 1)
  }

  predicate Contains(t: string, w: string) {
    ContainsFrom(t, w, 0)
  }

  /** The scan finds exactly the occurrences at `from` or later. */
  lemma {:induction false} ContainsFromOccurrence(t: string, w: string, from: nat)
    ensures ContainsFrom(t, w, from) <==> exists i: nat :: from <= i && HasAt(t, i, w)
    decreases |t| - from
  {
    if from + |w| <= |t| {
      ContainsFromOccurrence(t, w, from + 1);
      if !HasAt(t, from, w) {
        assert forall i :: from <= i && HasAt(t, i, w) ==> from + 1 <= i;
      }
    }
  }

  /** `w in t` holds exactly when `w` occurs at some position of `t`. */
  lemma ContainsOccurrence(t: string, w: string)
    ensures Contains(t, w) <==> exists i: nat :: HasAt(t, i, w)
  {
    ContainsFromOccurrence(t, w, 0);
  }

  lemma ContainsInfix(a: string, w: string, b: string)
    ensures Contains(a + w + b, w)
  {
    HasAtJoin(a, w, b);
    ContainsOccurrence(a + w + b, w);
  }

  /** An occurrence inside `t` stays an occurrence once text is added on either side. */
  lemma ContainsExtend(a: string, t: string, b: string, w: string)
    requires Contains(t, w)
    ensures Contains(a + t + b, w)
  {
    ContainsOccurrence(t, w);
    var i: nat :| HasAt(t, i, w);
    assert (a + t + b)[|a| + i..|a| + i + |w|] == t[i..i + |w|];
    assert HasAt(a + t + b, |a| + i, w);
    ContainsOccurrence(a + t + b, w);
  }

  /** Occurrence is transitive: a word inside a fragment of `t` is inside `t`. */
  lemma ContainsTransitive(t: string, part: string, w: string)
    requires Contains(t, part) && Contains(part, w)
    ensures Contains(t, w)
  {
    ContainsOccurrence(t, part);
    ContainsOccurrence(part, w);
    ContainsOccurrence(t, w);
    var i: nat :| HasAt(t, i, part);
    var j: nat :| HasAt(part, j, w);
    assert part == t[i..i + |part|];
    assert forall n :: i + j <= n < i + j + |w| ==> t[n] == part[n - i] == w[n - i - j];
    assert t[i + j..i + j + |w|] == w;
    assert HasAt(t, i + j, w);
  }

  /** The lines, each followed by a line break. */
  function Lines(ls: seq<string>): string {
    if |ls| == 0 then "" else ls[0] + "\n" + Lines(ls[1..])
  }

  /** Every line appears in the joined text. */
  lemma {:induction false} LinesContainLine(ls: seq<string>, k: nat)
    requires k < |ls|
    ensures Contains(Lines(ls), ls[k])
  {
    var rest := Lines(ls[1..]);
    if k == 0 {
      ContainsInfix("", ls[0], "\n" + rest);
      assert "" + ls[0] + ("\n" + rest) == Lines(ls);
    } else {
      LinesContainLine(ls[1..], k - 1);
      ContainsExtend(ls[0] + "\n", rest, "", ls[k]);
      assert ls[0] + "\n" + rest + "" == Lines(ls);
    }
  }

  /** Lower-casing leaves a string made of digits alone, so `"2016" in text.lower()` is `"2016" in text`. */
  lemma LowerKeepsDigitWord(t: string, w: string)
    requires forall k :: 0 <= k < |w| ==> IsDigit(w[k])
    ensures Contains(Lower(t), w) <==> Contains(t, w)
  {
    ContainsOccurrence(Lower(t), w);
    ContainsOccurrence(t, w);
    if Contains(Lower(t), w) {
      var i: nat :| HasAt(Lower(t), i, w);
      DigitWordUnderLower(t, w, i);
    }
    if Contains(t, w) {
      var i: nat :| HasAt(t, i, w);
      DigitWordUnderLower(t, w, i);
    }
  }

  /** A word of digits occurs at `i` of a text exactly when it occurs at `i` of the lower-cased text. */
  lemma DigitWordUnderLower(t: string, w: string, i: nat)
    requires forall k :: 0 <= k < |w| ==> IsDigit(w[k])
    ensures HasAt(Lower(t), i, w) <==> HasAt(t, i, w)
  {
    var l := Lower(t);
    if HasAt(l, i, w) {
      assert forall k :: i <= k < i + |w| ==> t[k] == l[k] by {
        forall k | i <= k < i + |w| ensures t[k] == l[k] {
          assert l[k] == l[i..i + |w|][k - i] == w[k - i];
        }
      }
      assert t[i..i + |w|] == w;
    }
    if HasAt(t, i, w) {
      assert forall k :: i <= k < i + |w| ==> l[k] == t[k] by {
        forall k | i <= k < i + |w| ensures l[k] == t[k] {
          assert t[k] == t[i..i + |w|][k - i] == w[k - i];
        }
      }
      assert l[i..i + |w|] == w;
    }
  }

  /** The end of the longest run of characters satisfying `p` that starts at `i`. */
  function SpanWhile(t: string, i: nat, p: char -> bool): (j: nat)
    requires i <= |t|
    ensures i <= j <= |t|
    ensures forall k :: i <= k < j ==> p(t[k])
    ensures j == |t| || !p(t[j])
    decreases |t| - i
  {
    if i < |t| && p(t[i]) then SpanWhile(t, i + 1, p) else i
  }

  /** A run of `p` characters followed by a character outside `p` (or by nothing) spans exactly the run. */
  lemma SpanOver(a: string, b: string, i: nat, p: char -> bool)
    requires i <= |a|
    requires forall k :: i <= k < |a| ==> p(a[k])
    requires |b| > 0 ==> !p(b[0])
    ensures SpanWhile(a + b, i, p) == |a|
  {
    assert forall k :: i <= k < |a| ==> (a + b)[k] == a[k];
    assert |b| > 0 ==> (a + b)[|a|] == b[0];
  }

  /** The decimal digit of `d`. */
  function DigitChar(d: nat): (c: char)
    requires d < 10
    ensures IsDigit(c)
  {
    ('0' as int + d) as char
  }

  function DigitValue(c: char): (d: nat)
    requires IsDigit(c)
    ensures d < 10 && DigitChar(d) == c
  {
    c as int - '0' as int
  }

  predicate AllDigits(s: string) {
    forall k :: 0 <= k < |s| ==> IsDigit(s[k])
  }

  /** Decimal text of a natural number, as `str(n)` writes it: no sign, no leading zeros. */
  function ShowNat(n: nat): (s: string)
    ensures |s| > 0 && AllDigits(s)
    ensures |s| > 1 ==> s[0] != '0'
  {
    if n < 10 then [DigitChar(n)] else ShowNat(n / 10) + [DigitChar(n % 10)]
  }

  /** Decimal text of an integer, as `str(n)` writes it. */
  function ShowInt(n: int): (s: string)
    ensures |s| > 0
    ensures n < 0 <==> s[0] == '-'
  {
    if n < 0 then "-" + ShowNat(-n) else ShowNat(n)
  }

  /** Left-pads `s` with zeros to `width` characters, as the `%0Nd` format does. */
  function PadZeros(s: string, width: nat): (r: string)
    ensures |r| == if |s| < width then width else |s|
    ensures r[|r| - |s|..] == s
    decreases width - |s|
  {
    if |s| < width then
      var r := PadZeros("0" + s, width);
      assert r[|r| - |s|..] == r[|r| - |"0" + s|..][1..];
      r
    else s
  }

  /** The number a run of decimal digits denotes (the empty run denotes 0). */
  function DigitsValue(s: string): nat
    requires AllDigits(s)
  {
    if |s| == 0 then 0 else DigitsValue(s[..|s| - 1]) * 10 + DigitValue(s[|s| - 1])
  }

  /** Reading back the text of `n` gives `n`. */
  lemma {:induction false} DigitsValueShowNat(n: nat)
    ensures DigitsValue(ShowNat(n)) == n
  {
    var s := ShowNat(n);
    if n >= 10 {
      DigitsValueShowNat(n / 10);
      assert s[..|s| - 1] == ShowNat(n / 10);
    }
  }

  function Pow10(k: nat): (p: nat)
    ensures p >= 1
  {
    if k == 0 then 1 else 10 * Pow10(k - 1)
  }

  /** A number below `10^k` takes at most `k` digits. */
  lemma {:induction false} ShowNatLength(n: nat, k: nat)
    requires k >= 1 && n < Pow10(k)
    ensures |ShowNat(n)| <= k
  {
    if n >= 10 {
      ShowNatLength(n / 10, k - 1);
    }
  }

  /** The first position of `c` in `s`. */
  function IndexOf(s: string, c: char): (i: nat)
    requires c in s
    ensures i < |s| && s[i] == c
    ensures forall k :: 0 <= k < i ==> s[k] != c
  {
    if s[0] == c then 0 else 1 + IndexOf(s[1..], c)
  }

  /** The digits of a run of digits and points, with the points left out. */
  function DropPoints(s: string): (d: string)
    requires forall k :: 0 <= k < |s| ==> IsNumberChar(s[k])
    ensures AllDigits(d)
  {
    if |s| == 0 then []
    else if s[0] == '.' then DropPoints(s[1..])
    else
      var rest := DropPoints(s[1..]);
      assert AllDigits([s[0]] + rest) by {
        forall k | 0 <= k < |[s[0]] + rest| ensures IsDigit(([s[0]] + rest)[k]) {
          if k == 0 { assert IsNumberChar(s[0]); } else { assert ([s[0]] + rest)[k] == rest[k - 1]; }
        }
      }
      [s[0]] + rest
  }

  /** The number of characters after the first point of `s`; none without a point. */
  function Scale(s: string): nat {
    if '.' in s then |s| - 1 - IndexOf(s, '.') else 0
  }

  /**
   * Python's `float(s)` on a string drawn from `[0-9.]`: it accepts one optional decimal point
   * and at least one digit, and raises `ValueError` (here `None`) on anything else, such as
   * `"."` or `"1.5."`. The value, scaled by ten to the number of digits after the point, is the
   * number its digits spell.
   */
  function ParseDecimal(s: string): (r: Option<real>)
    requires forall k :: 0 <= k < |s| ==> IsNumberChar(s[k])
    ensures r.None? <==>
              (forall k :: 0 <= k < |s| ==> s[k] == '.')
              || (exists j, k :: 0 <= j < k < |s| && s[j] == '.' && s[k] == '.')
    ensures r.Some? ==> r.value >= 0.0
    ensures r.Some? ==> ShiftsTo(r.value, Scale(s), DigitsValue(DropPoints(s)))
  {
    if '.' !in s then
      WholeValue(s);
      if |s| == 0 then None else Some(DigitsValue(s) as real)
    else
      var i := IndexOf(s, '.');
      var whole, frac := s[..i], s[i + 1..];
      if '.' in frac || |whole| + |frac| == 0 then None
      else
        PointValue(s);
        Some(PointNumber(whole, frac))
  }

  /** The number `whole.frac`: moving the first fractional digit before the point and dividing by ten. */
  function PointNumber(whole: string, frac: string): (v: real)
    requires AllDigits(whole) && AllDigits(frac)
    ensures v >= 0.0
    decreases |frac|
  {
    if |frac| == 0 then DigitsValue(whole) as real
    else
      AllDigitsAppend(whole, frac[..1]);
      PointNumber(whole + frac[..1], frac[1..]) / 10.0
  }

  /** Moving the point of `v` right by `k` places gives the whole number `n`. */
  predicate ShiftsTo(v: real, k: nat, n: nat)
    decreases k
  {
    if k == 0 then v == n as real else ShiftsTo(v * 10.0, k - 1, n)
  }

  /** `ShiftsTo` is multiplication by ten to the `k`. */
  lemma {:induction false} ShiftsToScales(v: real, k: nat, n: nat)
    ensures ShiftsTo(v, k, n) <==> v * Pow10(k) as real == n as real
    decreases k
  {
    if k > 0 {
      ShiftsToScales(v * 10.0, k - 1, n);
      assert (v * 10.0) * Pow10(k - 1) as real == v * Pow10(k) as real;
    }
  }

  /** Shifting the point of `whole.frac` past the fraction leaves the number all its digits spell. */
  lemma {:induction false} ShiftPoint(whole: string, frac: string)
    requires AllDigits(whole) && AllDigits(frac)
    ensures AllDigits(whole + frac)
    ensures ShiftsTo(PointNumber(whole, frac), |frac|, DigitsValue(whole + frac))
    decreases |frac|
  {
    AllDigitsAppend(whole, frac);
    if |frac| == 0 {
      assert whole + frac == whole;
    } else {
      AllDigitsAppend(whole, frac[..1]);
      var whole', rest := whole + frac[..1], frac[1..];
      assert whole' + rest == whole + frac;
      ShiftPoint(whole', rest);
    }
  }

  /** Without a point, dropping points changes nothing. */
  lemma {:induction false} DropPointsNone(s: string)
    requires forall k :: 0 <= k < |s| ==> IsNumberChar(s[k])
    requires '.' !in s
    ensures AllDigits(s) && DropPoints(s) == s
  {
    if |s| > 0 {
      assert s[0] in s;
      assert forall x :: x in s[1..] ==> x in s;
      DropPointsNone(s[1..]);
    }
  }

  /** Dropping points works piecewise. */
  lemma {:induction false} DropPointsAppend(a: string, b: string)
    requires forall k :: 0 <= k < |a| ==> IsNumberChar(a[k])
    requires forall k :: 0 <= k < |b| ==> IsNumberChar(b[k])
    ensures DropPoints(a + b) == DropPoints(a) + DropPoints(b)
  {
    if |a| > 0 {
      assert (a + b)[1..] == a[1..] + b;
      DropPointsAppend(a[1..], b);
    } else {
      assert a + b == b;
    }
  }

  lemma AllDigitsAppend(a: string, b: string)
    requires AllDigits(a) && AllDigits(b)
    ensures AllDigits(a + b)
  {
    forall k | 0 <= k < |a + b| ensures IsDigit((a + b)[k]) {
      if k >= |a| { assert (a + b)[k] == b[k - |a|]; }
    }
  }

  /** A run without a point is a whole number: its digits, unscaled. */
  lemma WholeValue(s: string)
    requires forall k :: 0 <= k < |s| ==> IsNumberChar(s[k])
    requires '.' !in s
    ensures AllDigits(s)
    ensures ShiftsTo(DigitsValue(s) as real, Scale(s), DigitsValue(DropPoints(s)))
  {
    DropPointsNone(s);
    assert Scale(s) == 0;
  }

  /** A run with exactly one point, shifted past its fraction, is the number its digits spell. */
  lemma PointValue(s: string)
    requires forall k :: 0 <= k < |s| ==> IsNumberChar(s[k])
    requires '.' in s && '.' !in s[IndexOf(s, '.') + 1..]
    ensures var i := IndexOf(s, '.');
            && AllDigits(s[..i]) && AllDigits(s[i + 1..])
            && ShiftsTo(PointNumber(s[..i], s[i + 1..]), Scale(s), DigitsValue(DropPoints(s)))
  {
    var i := IndexOf(s, '.');
    var whole, frac := s[..i], s[i + 1..];
    assert DropPoints(s) == whole + frac by {
      SplitAtPoint(s, i);
    }
    ShiftPoint(whole, frac);
    assert Scale(s) == |frac|;
  }

  /** Dropping the only point of `s`, at `i`, joins the parts before and after it. */
  lemma SplitAtPoint(s: string, i: nat)
    requires forall k :: 0 <= k < |s| ==> IsNumberChar(s[k])
    requires i < |s| && s[i] == '.'
    requires forall k :: 0 <= k < i ==> s[k] != '.'
    requires '.' !in s[i + 1..]
    ensures AllDigits(s[..i]) && AllDigits(s[i + 1..])
    ensures DropPoints(s) == s[..i] + s[i + 1..]
  {
    var whole, rest, frac := s[..i], s[i..], s[i + 1..];
    assert s == whole + rest;
    assert rest[1..] == frac;
    assert '.' !in whole by {
      forall k | 0 <= k < |whole| ensures whole[k] != '.' { assert whole[k] == s[k]; }
    }
    DropPointsAppend(whole, rest);
    DropPointsNone(whole);
    DropPointsNone(frac);
  }

  /** The text of a whole number parses back to it, with or without a trailing point. */
  lemma ParseDecimalShowNat(n: nat)
    ensures ParseDecimal(ShowNat(n)) == Some(n as real)
    ensures ParseDecimal(ShowNat(n) + ".") == Some(n as real)
  {
    var s := ShowNat(n);
    DigitsValueShowNat(n);
    assert '.' !in s;
    var t := s + ".";
    assert IndexOf(t, '.') == |s|;
    assert t[..|s|] == s;
    assert t[|s| + 1..] == [];
    assert PointNumber(s, []) == n as real by {
      assert DigitsValue([]) == 0;
    }
  }

  /** A run with a fraction: "15.5" converts to 15.5. */
  lemma ParseDecimalFraction()
    ensures ParseDecimal("15.5") == Some(15.5)
  {
    var s := "15.5";
    assert s[2] == '.' && s[0] != '.' && s[1] != '.' && s[3] != '.';
    assert IndexOf(s, '.') == 2;
    assert Scale(s) == 1 && Pow10(1) == 10;
    assert DropPoints(s) == "155";
    assert DigitsValue("155") == 155 by {
      assert "155"[..2] == "15" && "15"[..1] == "1" && "1"[..0] == [];
    }
    assert ParseDecimal(s).Some?;
  }
}

=== FILE: wrappers.dfy ===
/** Optional values and fallible results shared by the analyzer and the integrator. */
module Wrappers {

  /** A value that may be absent: Python's `None`, or a missing (NaN) table cell. */
  datatype Option<+T> = None | Some(value: T)

  /** The outcome of a step that can raise: `Err` carries the exception's message. */
  datatype Result<+T> = Ok(value: T) | Err(message: string)
}
